=== FILE: README.md ===
# Pyvezi Connect-Four: a verified model of the game engines

Pyvezi plays Connect Four on a 6×7 grid. It has two parts, and this project models the game logic of both.

- **The browser client** (`ConnectFour` in `pyvezi_client/app.js`).
  - It keeps the board, the colour to move, the game mode and a text log of the columns played.
  - A click drops a piece into the lowest empty cell of a column.
  - After each move it checks for four in a row along four axes, and highlights the winning run.
  - It checks for a draw and passes the turn to the other colour.
  - It can replay a loaded move file before play starts.
- **The Python backend** (`Agent` and its two search agents in `pyvezi_backend/game/agents.py`).
  - It finds open rows and legal columns and simulates moves on a copy of the board.
  - It detects a win by scanning the 69 windows of four cells.
  - It scores windows with a heuristic, and sums those scores over the board.
  - It chooses a column with alpha-beta minimax or with negscout.

The board is an immutable `seq<seq<Cell>>`. A cell is `Empty` or `Piece(Red)`/`Piece(Yellow)`. Row 0 is the top row.

The client controller is a state record `Game(board, current, mode, fileContent)`. Loading a move file is the function `LoadFile`. The steps `MakeMove`, `HandleClick` and `CreateBoard` are methods that return the next state. The backend helpers are pure functions.

Python's `float('inf')` scores become an extended-integer type, `Value = NegInf | Fin(n) | PosInf`. The search is proved against an independent reference, the plain minimax value:
- the alpha-beta result is *fail-soft* with respect to it;
- with the full window it is exactly that value;
- both searches return a column exactly when the depth is positive, the game is not over for the side to move and some column is valid, and that column is then valid.

A separate module, `Agreement`, relates the client's check to the backend's check. The client counts a run through the last cell played; the backend scans every window. A board has a window of four of one colour exactly when some cell of that colour has a run of at least four through it. If the board had no four of that colour before the move, the client's check on the last cell decides whether the backend now sees a win.

Files:
- `grid.dfy`: the shared board, a single-cell write (`Place`), gravity, and the geometry of a four.
- `move_file.dfy`: the move-file tokenizer and parser, and the log text that the client writes.
- `client_engine.dfy`: the client engine.
- `agents.dfy`: the backend helpers, win and terminal checks, and heuristics.
- `search.dfy`: minimax and negscout.
- `agreement.dfy`: client and backend win detection agree.

Both sides are modelled as written, including these behaviours:
- `is_game_over` looks only for a four of the colour whose turn it is.
- A full board counts as `"equal"` even when it holds a four.
- The easy, medium and expert heuristics are one function.
- The heuristic choice persists on the agent, and an unrecognised name keeps the previous one.
- `negscout` negates the child scores, although the evaluation is always from red's side.
- No game-over check guards `handleClick`. After a win the same colour keeps the turn, and a click in a column with room is still played unless a computer is to move. After a draw every column is full, so clicks change nothing.
- The replay loop in `createBoard` skips a stored column with no room and carries on (`pyvezi_client/app.js:113`). It does not stop the replay there.

## Model

| member | source | states |
|---|---|---|
| Grid.Other | pyvezi_client/app.js:182 | the colour to move next differs from the current one, and one of the two is red |
| Grid.Place | pyvezi_client/app.js:145 | writing a piece changes exactly the target cell and keeps the 6×7 shape |
| Grid.DropKeepsGravity | pyvezi_client/app.js:137-145 | a piece dropped on the lowest empty cell of a column keeps every column stacked from the bottom |
| Grid.EmptyBoard | pyvezi_client/app.js:95-97 | the new board is 6×7 with every cell empty |
| Grid.InBounds | pyvezi_client/app.js:271-273 | no contract of its own: the cell lies on the 6×7 board, as `isValidCell` checks; it guards the loop of ClientEngine.CollectRun, and through Grid.Holds ClientEngine.ReachMatches states that every counted cell of a run satisfies it |
| ClientEngine.FindAvailableRow | pyvezi_client/app.js:275-280 | the result is absent exactly when the column is full or not a column; otherwise it is the bottom-most empty row |
| ClientEngine.Walk | pyvezi_client/app.js:298-305 | the loop counts the same-colour cells after the start, at most three, stopping at the edge or at a different cell |
| ClientEngine.ReachMatches | pyvezi_client/app.js:299-305 | the counted cells are all on the board and of the colour, and the first cell after them is not |
| ClientEngine.ReachCovers | pyvezi_client/app.js:299-305 | m consecutive matching cells after the start are all counted, so the count is at least m |
| ClientEngine.CheckDirection | pyvezi_client/app.js:294-317 | true exactly when 1 plus the forward and backward runs of the cell's colour reach 4 |
| ClientEngine.CheckWin | pyvezi_client/app.js:282-292 | true exactly when one of the four axes has a run of four or more through the cell |
| ClientEngine.CollectRun | pyvezi_client/app.js:253-258 | the collected cells are exactly the counted run along the axis, nearest first |
| ClientEngine.GetWinningCellsInDirection | pyvezi_client/app.js:249-269 | the list starts with the cell, followed by the forward run and then the backward run |
| ClientEngine.ListedRunHolds | pyvezi_client/app.js:249-269 | the list has 1 to 7 entries and starts at the cell; every other entry is on the board and holds the colour; for the cell's own colour its length equals the count of `checkDirection` |
| ClientEngine.GetWinningCells | pyvezi_client/app.js:213-235 | four or more cells exactly when the cell wins, `[]` otherwise; the cells come from the first winning axis in the order horizontal, vertical, down-right, down-left, and all hold the cell's colour |
| ClientEngine.CheckDraw | pyvezi_client/app.js:319-321 | true exactly when no cell is empty |
| ClientEngine.MakeMove | pyvezi_client/app.js:144-182 | writes only the target cell; logs `col` and a newline unless the move came from a file; reports a win exactly when the move wins, with the run along the first winning axis that `getWinningCells` returns, and a draw exactly when it does not win and fills the board; flips the colour only otherwise |
| ClientEngine.ComputerToMove | pyvezi_client/app.js:129-133 | no contract of its own: a computer is to move in computer-vs-computer mode, and in man-vs-computer mode when yellow is to move; ClientEngine.HandleClick states that such clicks change nothing |
| ClientEngine.HandleClick | pyvezi_client/app.js:128-142 | nothing changes while a computer is to move or when the column is full; otherwise the piece lands on the lowest empty cell, the column is logged, and the turn passes to the other colour unless the move wins or fills the board; gravity is kept |
| ClientEngine.LoadFile | pyvezi_client/app.js:72-76 | the stored moves are columns, no more than the file's tokens; a file naming a column sets red to move and restarts the file content as the text and a line break; otherwise the game is unchanged; the board and mode are never touched |
| ClientEngine.LoadedLogReplays | pyvezi_client/app.js:72-76 | after loading a file with moves and logging further moves, the file content parses to the stored moves followed by the new ones |
| ClientEngine.HeightsGiveGravity | pyvezi_client/app.js:111-116 | a board whose columns are filled from the bottom obeys gravity |
| ClientEngine.HeightLowestOpen | pyvezi_client/app.js:111-116 | a column of height n is full exactly when n is 6, and otherwise its landing row is the one above the pile |
| ClientEngine.CreateBoard | pyvezi_client/app.js:93-116 | replay from an empty board leaves each column with as many pieces as times it was named, up to six, skipping full columns; the result obeys gravity and the log is untouched |
| ClientEngine.ThinkDelay | pyvezi_client/app.js:371-377 | the wait is zero or tops the elapsed time up to exactly the 1000 ms minimum |
| MoveFile.Tokens | pyvezi_client/app.js:59-61 | no contract of its own: the maximal runs of non-whitespace characters, in order; MoveFile.TokensAreWords and MoveFile.TokensSplitAtSpace state their properties |
| MoveFile.IsSpace | pyvezi_client/app.js:59-61 | no contract of its own: the whitespace set of JavaScript's `trim()` and `\s` (tab to carriage return, space, the no-break spaces, the Unicode space separators, line and paragraph separators and the byte-order mark); MoveFile.TokensAreWords and MoveFile.TokensSplitAtSpace state the split on it |
| MoveFile.WordLength | pyvezi_client/app.js:59-61 | the first word ends at the first whitespace or at the end of the text |
| MoveFile.TokensAreWords | pyvezi_client/app.js:59-61 | every token of the whitespace split is non-empty and contains no whitespace |
| MoveFile.TokensSplitAtSpace | pyvezi_client/app.js:59-61 | splitting text joined by a whitespace character gives the tokens of each part, in order |
| MoveFile.ParseToken | pyvezi_client/app.js:62 | a token has a number exactly when it is a non-empty string of decimal digits, and the number is non-negative |
| MoveFile.KeepColumns | pyvezi_client/app.js:63 | only column numbers survive, never more than there were tokens, and all survive exactly when every token is a column |
| MoveFile.KeepColumnsAppend | pyvezi_client/app.js:62-63 | filtering a concatenation is the concatenation of the filtered parts, so surviving tokens keep their order |
| MoveFile.ParseMoveFile | pyvezi_client/app.js:57-64 | every parsed entry is in [0, 7), and there are no more entries than tokens |
| MoveFile.ColumnLine | pyvezi_client/app.js:147 | the logged line is a digit followed by a newline, and the digit parses back to the column |
| MoveFile.LogTextAppend | pyvezi_client/app.js:146-148 | logging one more move appends that move's line to the log |
| MoveFile.ParseLogRoundTrip | pyvezi_client/app.js:57-64 | parsing the log of a sequence of columns gives back exactly that sequence |
| MoveFile.ParseAfterLoadedFile | pyvezi_client/app.js:75 | a log that starts with a loaded file parses to that file's moves followed by the moves played since |
| Agents.SideOf | pyvezi_backend/game/agents.py:106 | the maximizing side is red and the other side is yellow |
| Agents.OpenRowFrom | pyvezi_backend/game/agents.py:141-144 | scanning upward from a row finds the lowest empty cell at or above it, or none when all of them are occupied |
| Agents.NextOpenRow | pyvezi_backend/game/agents.py:140-144 | none exactly when the column is full; otherwise the bottom-most empty row |
| Agents.ValidFromBounds | pyvezi_backend/game/agents.py:133-138 | columns collected from a starting column lie between it and 7 |
| Agents.ValidColumns | pyvezi_backend/game/agents.py:133-138 | every listed entry is a column |
| Agents.ValidFromSorted | pyvezi_backend/game/agents.py:133-138 | the collected columns are strictly ascending |
| Agents.ValidFromMembers | pyvezi_backend/game/agents.py:133-138 | a column is collected exactly when it is at or after the start and its top cell is empty |
| Agents.ValidColumnsSpec | pyvezi_backend/game/agents.py:133-138 | the valid columns are strictly ascending and contain a column exactly when its top cell is empty |
| Agents.ValidMeansOpen | pyvezi_backend/game/agents.py:133-144 | a valid column has an open row; under gravity a column is valid exactly when it is not full |
| Agents.SimulateMove | pyvezi_backend/game/agents.py:146-151 | the copy keeps the 6×7 shape |
| Agents.SimulateMoveChanges | pyvezi_backend/game/agents.py:146-151 | a full column gives an equal board; otherwise only the lowest empty cell of the column changes, and it takes the mover's colour |
| Agents.SimulateMoveKeepsGravity | pyvezi_backend/game/agents.py:146-151 | the move keeps gravity, and it changes the board exactly when the column is not full |
| Agents.CellOf | pyvezi_backend/game/agents.py:73-95 | no contract of its own: the i-th cell of a window, as the index expressions of each scan loop compute it; Agreement.WindowIsFour relates it to the client's axes |
| Agents.WindowCells | pyvezi_backend/game/agents.py:76 | a window's cells are the four board cells along its direction, in order |
| Agents.Windows | pyvezi_backend/game/agents.py:71-95 | exactly 69 windows are scanned and each lies on the board |
| Agents.HorizontalListed | pyvezi_backend/game/agents.py:74-77 | every horizontal window on the board is among the scanned ones |
| Agents.VerticalListed | pyvezi_backend/game/agents.py:80-83 | every vertical window on the board is among the scanned ones |
| Agents.DownRightListed | pyvezi_backend/game/agents.py:86-89 | every down-right window on the board is among the scanned ones |
| Agents.DownLeftListed | pyvezi_backend/game/agents.py:92-95 | every down-left window on the board is among the scanned ones |
| Agents.WindowsComplete | pyvezi_backend/game/agents.py:71-95 | every window of four that fits on the board is scanned |
| Agents.AnyCompleteFinds | pyvezi_backend/game/agents.py:108-131 | the scan succeeds exactly when some scanned window is all one colour |
| Agents.CheckWinner | pyvezi_backend/game/agents.py:105-131 | only the side chosen by `maximizing_player` is ever reported, never the other colour |
| Agents.CheckWinnerSound | pyvezi_backend/game/agents.py:105-131 | a winner is reported exactly when some window of four on the board is all that side's colour |
| Agents.IsGameOver | pyvezi_backend/game/agents.py:102-103 | a reported winner is always the side to move |
| Agents.IsGameOverCases | pyvezi_backend/game/agents.py:102-103 | "equal" exactly when no cell is empty, even with a four present; a win exactly when the board has room and the side to move has a four; not over otherwise |
| Agents.GameOverIgnoresOtherSide | pyvezi_backend/game/agents.py:102-106 | on a board that is not full, a four of the other colour leaves the game not over as long as the side asked about has no four |
| Agents.Count | pyvezi_backend/game/agents.py:14-22 | a cell is never counted more often than the window has cells |
| Agents.CountsPartition | pyvezi_backend/game/agents.py:14-22 | the empty, red and yellow counts of a window add up to its length |
| Agents.CountAll | pyvezi_backend/game/agents.py:14-22 | a count equals the length exactly when every cell is that value |
| Agents.EvaluateWindow | pyvezi_backend/game/agents.py:11-24 | the score is one of 99999, 2, 1, -20, -99990 and 0, and four of the player scores 99999 |
| Agents.EvaluateWindowSigns | pyvezi_backend/game/agents.py:11-24 | a positive score means no opponent piece and at least two of the player's; a negative score means no piece of the player and three or more of the opponent's; 99999 and -99990 exactly for four of the player and four of the opponent |
| Agents.LevelHeuristic | pyvezi_backend/game/agents.py:26-69 | the score is one of 99999, 10, 5, 2, -99990 and 0; four of the player scores 99999 and an empty window scores 2 |
| Agents.LevelHeuristicSigns | pyvezi_backend/game/agents.py:26-69 | a positive score means no opponent piece; negative exactly for four of the opponent; 99999 exactly for four of the player |
| Agents.SelectScorer | pyvezi_backend/game/agents.py:154-160 | each recognised name selects its heuristic; any other name keeps the heuristic selected before |
| Agents.Score | pyvezi_backend/game/agents.py:77 | the window score lies in [-99990, 99999], and every named level scores with the shared level heuristic |
| Agents.SumScores | pyvezi_backend/game/agents.py:71-97 | the sum over n windows lies between -99990·n and 99999·n |
| Agents.CountWindows | pyvezi_backend/game/agents.py:71-97 | the board score of one colour lies between -99990·69 and 99999·69 |
| Agents.EvaluateState | pyvezi_backend/game/agents.py:99-100 | red's score minus yellow's lies within ±(99999+99990)·69 |
| Agents.CountSwap | pyvezi_backend/game/agents.py:14-22 | counting a swapped value in a swapped window gives the original count |
| Agents.ScoreSwap | pyvezi_backend/game/agents.py:11-69 | a window scores the same for a player as its swap scores for the opponent |
| Agents.SumScoresSwap | pyvezi_backend/game/agents.py:71-97 | a sum of window scores is the same for a player and, on the swapped board, for the opponent |
| Agents.EvaluateStateSwap | pyvezi_backend/game/agents.py:99-100 | swapping the colours on the board negates the evaluation |
| Agents.CheckWinnerSwap | pyvezi_backend/game/agents.py:105-131 | one side wins on a board exactly when the other side wins on the colour-swapped board |
| Search.Max | pyvezi_backend/game/agents.py:186 | the maximum is one of its arguments and below neither |
| Search.Min | pyvezi_backend/game/agents.py:199 | the minimum is one of its arguments and above neither |
| Search.Neg | pyvezi_backend/game/agents.py:240-241 | negation keeps finiteness, negates finite scores and swaps the infinities |
| Search.Pred | pyvezi_backend/game/agents.py:243 | `-alpha - 1` lowers a finite bound by one and leaves the infinities alone |
| Search.NegReversesOrder | pyvezi_backend/game/agents.py:240-247 | negation reverses the order of scores and undoes itself |
| Search.LeafValue | pyvezi_backend/game/agents.py:163-171 | +∞ exactly for a red win, -∞ exactly for a yellow win, a finite score otherwise |
| Search.Minimax | pyvezi_backend/game/agents.py:162-202 | a column is returned exactly when depth is positive, the game is not over and some column is valid, and then it is a valid column |
| Search.MinimaxScan | pyvezi_backend/game/agents.py:177-202 | the scan over candidate columns always returns one of them |
| Search.MinimaxFailSoft | pyvezi_backend/game/agents.py:162-202 | against the plain minimax value, the alpha-beta score is an upper bound when it is at or below alpha, exact strictly inside (alpha, beta), and a lower bound when it is at or above beta |
| Search.ChildFailSoft | pyvezi_backend/game/agents.py:181-182 | the recursive call on a child board is fail-soft with respect to the child's minimax value |
| Search.MaxScanFailSoft | pyvezi_backend/game/agents.py:177-189 | the maximizing loop with its cut-off is fail-soft with respect to the best child value |
| Search.MinScanFailSoft | pyvezi_backend/game/agents.py:190-202 | the minimizing loop with its cut-off is fail-soft with respect to the best child value |
| Search.MinimaxExact | pyvezi_backend/game/agents.py:204-205 | started with the window (-∞, +∞), alpha-beta returns exactly the minimax value |
| Search.Negscout | pyvezi_backend/game/agents.py:218-263 | a column is returned exactly when depth is positive, the game is not over and some column is valid, and then it is a valid column |
| Search.ProbeChild | pyvezi_backend/game/agents.py:237-247 | the null-window probe and its re-search give a score within the evaluation bound |
| Search.NegscoutScan | pyvezi_backend/game/agents.py:233-263 | the scan over candidate columns always returns one of them |
| Search.ChosenColumn | pyvezi_backend/game/agents.py:154-207 | the agent keeps the selected heuristic; a column comes back exactly when the search may move, and it is a valid column |
| Search.ChosenColumnIsLegal | pyvezi_backend/game/agents.py:173-202 | the chosen column is on the board and not full, and playing it changes the board and keeps gravity |
| Agreement.AxisIndex | pyvezi_client/app.js:283-288 | each window direction of the backend corresponds to one of the client's four axes |
| Agreement.DirectionOf | pyvezi_client/app.js:283-288 | each client axis comes from a backend window direction, inverse to the above |
| Agreement.WindowIsFour | pyvezi_backend/game/agents.py:108-129 | a window lies on the board and is all one colour exactly when the four cells from its corner along the matching client axis hold that colour |
| Agreement.RunHasFour | pyvezi_client/app.js:294-317 | when the client counts four or more through a cell, the four cells starting at the far end of the backward run all hold its colour |
| Agreement.FourGivesRun | pyvezi_client/app.js:294-317 | every cell of a four in a row makes the client count at least four along that axis |
| Agreement.WinChecksAgree | pyvezi_client/app.js:282-292 | the backend finds a window of four of a colour exactly when some cell of that colour passes the client's win check |
| Agreement.WindowWinsAtCells | pyvezi_client/app.js:282-292 | each of the four cells of a complete window passes the client's win check |
| Agreement.UntouchedWindow | pyvezi_client/app.js:145 | writing a cell outside a window does not change whether the window is complete |
| Agreement.LastMoveDecides | pyvezi_client/app.js:162 | from a board without a four of the mover's colour, the backend sees a win after the move exactly when the client's check on the cell just played succeeds |

## Left out

- DOM and UI (cell elements, highlighting, alerts, modals, difficulty forms, file upload and save, `pyvezi_client/app.js:24-47`, `66-71`, `77-87`, `92-94`, `98-110`, `150-160`, `204-211`, `237-247`, `379-504`): presentation and I/O with no game logic; the model keeps the state they read and write. Reading the uploaded file is I/O; `ClientEngine.LoadFile` takes its text as a parameter.
- `computerTurn`, `waitWhilePaused`, `sleep` and the `Date.now` calls (`pyvezi_client/app.js:323-369`): network requests, polling and clocks. Only the arithmetic of `ensureMinimumDelay` is kept, with the elapsed time as a parameter.
- The pause flag `_isPaused`, its Space-key toggle and the status line that shows it (`pyvezi_client/app.js:48-55`, `88-91`) are not modelled: `ClientEngine.Game` has no paused field, and pausing only delays the computer's turns.
- The computer-turn dispatch (`pyvezi_client/app.js:117-125`, `185-200`) is not modelled: `ClientEngine.CreateBoard` and `ClientEngine.MakeMove` stop where the source would start a computer turn, because that turn is a network request. `ClientEngine.ComputerToMove` states which side the dispatch serves.
- The cell encoding the client sends to the backend (`pyvezi_client/app.js:328-334`): each side's board is modelled on its own, with one shared cell type, and the cross-process format is not modelled.
- The Django views and URL routing of the backend: request plumbing, not part of this model.
- `CompVsComp` (`pyvezi_backend/game/agents.py:272-331`): its game loop indexes into an integer column, so its behaviour is ill-defined.
- `time.time()` and the elapsed time returned by `get_chosen_column`: clocks; only the chosen column is modelled.
- MoveFile.ParseToken: only plain decimal digit strings are numbers. JavaScript's `Number()` also accepts signs, fractions, exponents, and hexadecimal (`0x`), binary (`0b`) and octal (`0o`) forms, and turns an empty or whitespace-only file into `[0]`; that coercion is not reproduced.
- ClientEngine.CreateBoard: states the column heights, gravity and the untouched log, but not which colour each replayed piece has, nor how the turn advances during replay.
- ClientEngine.FindAvailableRow: the column is a mathematical integer. A non-numeric click target (`parseInt` giving `NaN`) is treated like any other index off the board, and so is ignored.
- Search.Negscout: its contract states only that the column is legal and the score within the evaluation bound. It is not related to the minimax value, because the source negates a score that is always computed from red's side, so the two searches need not agree.
- Search.ProbeChild: states only that the score lies within the evaluation bound, for the same reason.
- Agents.IsGameOver: the source returns the string `"equal"`, a colour name, or `False`; the model uses a three-way status with the same meaning.

=== FILE: agents.dfy ===
/** The board helpers of the backend agent (`Agent` in
    pyvezi_backend/game/agents.py): where a piece lands, which columns are
    playable, the copy-and-drop used by the search, the four-in-a-row check
    over every window of four cells, and the window heuristics that score a
    position for the search. */
module Agents {
  import opened Grid

  /** `'red' if maximizing_player else 'yellow'`: the colour a side plays. */
  function SideOf(maximizing: bool): (p: Player)
    ensures p == Red <==> maximizing
  {
    if maximizing then Red else Yellow
  }

  // ---------------------------------------------------------------------
  // Columns and drops

  /** The scan of `get_next_open_row` from `row` upwards to the top. */
  function OpenRowFrom(b: Board, col: int, row: int): (r: Option<int>)
    requires WellFormed(b) && IsColumn(col) && -1 <= row < ROWS
    ensures r.None? <==> forall k :: 0 <= k <= row ==> b[k][col] != Empty
    ensures r.Some? ==> 0 <= r.value <= row && b[r.value][col] == Empty
    ensures r.Some? ==> forall k :: r.value < k <= row ==> b[k][col] != Empty
    decreases row + 1
  {
    if row < 0 then None
    else if b[row][col] == Empty then Some(row)
    else OpenRowFrom(b, col, row - 1)
  }

  /** `get_next_open_row`: the bottom-most empty cell of `col`, or none when
      the column is full. */
  function NextOpenRow(b: Board, col: int): (r: Option<int>)
    requires WellFormed(b) && IsColumn(col)
    ensures r.None? <==> ColumnFull(b, col)
    ensures r.Some? ==> IsLowestOpen(b, col, r.value)
  {
    OpenRowFrom(b, col, ROWS - 1)
  }

  /** The part of `get_valid_columns` that looks at columns `col` and above. */
  function ValidFrom(b: Board, col: int): (cols: seq<int>)
    requires WellFormed(b) && 0 <= col <= COLS
    decreases COLS - col
  {
    if col == COLS then []
    else if b[0][col] == Empty then [col] + ValidFrom(b, col + 1)
    else ValidFrom(b, col + 1)
  }

  /** Every column the scan from `col` lists is a column from `col` on. */
  lemma {:induction false} ValidFromBounds(b: Board, col: int, i: int)
    requires WellFormed(b) && 0 <= col <= COLS
    requires 0 <= i < |ValidFrom(b, col)|
    ensures col <= ValidFrom(b, col)[i] < COLS
    decreases COLS - col
  {
    if b[0][col] == Empty {
      if i > 0 {
        ValidFromBounds(b, col + 1, i - 1);
      }
    } else {
      ValidFromBounds(b, col + 1, i);
    }
  }

  /** `get_valid_columns`: the columns whose top cell is empty, in order. */
  function ValidColumns(b: Board): (cols: seq<int>)
    requires WellFormed(b)
    ensures forall i :: 0 <= i < |cols| ==> IsColumn(cols[i])
  {
    forall i | 0 <= i < |ValidFrom(b, 0)| ensures IsColumn(ValidFrom(b, 0)[i]) {
      ValidFromBounds(b, 0, i);
    }
    ValidFrom(b, 0)
  }

  /** The scan from `col` lists its columns in strictly ascending order. */
  lemma {:induction false} ValidFromSorted(b: Board, col: int, i: int, j: int)
    requires WellFormed(b) && 0 <= col <= COLS
    requires 0 <= i < j < |ValidFrom(b, col)|
    ensures ValidFrom(b, col)[i] < ValidFrom(b, col)[j]
    decreases COLS - col
  {
    if b[0][col] == Empty {
      ValidFromBounds(b, col + 1, j - 1);
      if i > 0 {
        ValidFromSorted(b, col + 1, i - 1, j - 1);
      }
    } else {
      ValidFromSorted(b, col + 1, i, j);
    }
  }

  /** The scan from `col` holds exactly the columns from `col` on whose top
      cell is empty. */
  lemma {:induction false} ValidFromMembers(b: Board, col: int, c: int)
    requires WellFormed(b) && 0 <= col <= COLS
    ensures c in ValidFrom(b, col) <==> col <= c < COLS && b[0][c] == Empty
    decreases COLS - col
  {
    if col < COLS {
      ValidFromMembers(b, col + 1, c);
    }
  }

  /** `get_valid_columns` is strictly ascending and holds a column exactly
      when the top cell of that column is empty. */
  lemma ValidColumnsSpec(b: Board)
    requires WellFormed(b)
    ensures forall i, j :: 0 <= i < j < |ValidColumns(b)| ==> ValidColumns(b)[i] < ValidColumns(b)[j]
    ensures forall c :: c in ValidColumns(b) <==> IsColumn(c) && b[0][c] == Empty
  {
    forall i, j | 0 <= i < j < |ValidColumns(b)| ensures ValidColumns(b)[i] < ValidColumns(b)[j] {
      ValidFromSorted(b, 0, i, j);
    }
    forall c ensures c in ValidColumns(b) <==> IsColumn(c) && b[0][c] == Empty {
      ValidFromMembers(b, 0, c);
    }
  }

  /** A valid column always has an open row; under gravity the converse
      holds too, so the valid columns are exactly the columns that are not
      full. */
  lemma ValidMeansOpen(b: Board, col: int)
    requires WellFormed(b) && IsColumn(col)
    ensures col in ValidColumns(b) ==> NextOpenRow(b, col).Some?
    ensures Gravity(b) ==> (col in ValidColumns(b) <==> !ColumnFull(b, col))
  {
    ValidColumnsSpec(b);
    if Gravity(b) && !ColumnFull(b, col) {
      var row := NextOpenRow(b, col).value;
      assert b[row][col] == Empty;
    }
  }

  /** `simulate_move`: a copy of the board with the side's piece dropped into
      `col`; the board passed in is a value and is never changed. */
  function SimulateMove(b: Board, col: int, maximizing: bool): (b': Board)
    requires WellFormed(b) && IsColumn(col)
    ensures WellFormed(b')
  {
    match NextOpenRow(b, col)
    case None => b
    case Some(row) => Place(b, row, col, Piece(SideOf(maximizing)))
  }

  /** What `simulate_move` changes: a full column gives an equal copy;
      otherwise the lowest open cell of the column receives the side's
      colour and no other cell differs. */
  lemma SimulateMoveChanges(b: Board, col: int, maximizing: bool)
    requires WellFormed(b) && IsColumn(col)
    ensures ColumnFull(b, col) ==> SimulateMove(b, col, maximizing) == b
    ensures forall row :: IsLowestOpen(b, col, row) ==> SimulateMove(b, col, maximizing)[row][col] == Piece(SideOf(maximizing))
    ensures forall r, c :: InBounds(r, c) && SimulateMove(b, col, maximizing)[r][c] != b[r][c] ==> c == col && IsLowestOpen(b, col, r)
  {
  }

  /** A simulated drop keeps gravity and adds exactly one piece to a column
      that is not full. */
  lemma SimulateMoveKeepsGravity(b: Board, col: int, maximizing: bool)
    requires WellFormed(b) && IsColumn(col) && Gravity(b)
    ensures Gravity(SimulateMove(b, col, maximizing))
    ensures !ColumnFull(b, col) <==> SimulateMove(b, col, maximizing) != b
  {
    var r := NextOpenRow(b, col);
    if r.Some? {
      DropKeepsGravity(b, col, r.value, Piece(SideOf(maximizing)));
      assert SimulateMove(b, col, maximizing)[r.value][col] != b[r.value][col];
    }
  }

  // ---------------------------------------------------------------------
  // Windows of four

  /** The four directions the backend scans. */
  datatype Direction = Horizontal | Vertical | DownRight | DownLeft

  /** Four cells starting at (row, col) in one direction. */
  datatype Window = Window(dir: Direction, row: int, col: int)

  /** The `i`-th cell of a window, written as the backend indexes it. */
  function CellOf(w: Window, i: int): Pos
  {
    match w.dir
    case Horizontal => (w.row, w.col + i)
    case Vertical => (w.row + i, w.col)
    case DownRight => (w.row + i, w.col + i)
    case DownLeft => (w.row + i, w.col - i)
  }

  /** All four cells of the window lie on the board. */
  predicate Fits(w: Window)
  {
    forall i :: 0 <= i < 4 ==> InBounds(CellOf(w, i).0, CellOf(w, i).1)
  }

  function At(b: Board, p: Pos): Cell
    requires WellFormed(b) && InBounds(p.0, p.1)
  {
    b[p.0][p.1]
  }

  /** The list `[board[...] for i in range(4)]` of one window. */
  function WindowCells(b: Board, w: Window): (cells: seq<Cell>)
    requires WellFormed(b) && Fits(w)
    ensures |cells| == 4
    ensures forall i :: 0 <= i < 4 ==> cells[i] == At(b, CellOf(w, i))
  {
    [At(b, CellOf(w, 0)), At(b, CellOf(w, 1)), At(b, CellOf(w, 2)), At(b, CellOf(w, 3))]
  }

  /** The windows `count_windows` and `check_winner` visit, in their order:
      rows outer and columns inner, horizontal first, then vertical,
      down-right and down-left. */
  function Windows(): (ws: seq<Window>)
    ensures |ws| == 69
    ensures forall i :: 0 <= i < |ws| ==> Fits(ws[i])
  {
    seq(24, i => Window(Horizontal, i / 4, i % 4))
    + seq(21, i => Window(Vertical, i / 7, i % 7))
    + seq(12, i => Window(DownRight, i / 4, i % 4))
    + seq(12, i => Window(DownLeft, i / 4, 3 + i % 4))
  }

  /** Where each kind of window sits in the enumeration: horizontal windows
      from index 0, vertical ones from 24, down-right ones from 45 and
      down-left ones from 57, each block in row-major order. */
  lemma HorizontalListed(w: Window)
    requires Fits(w) && w.dir == Horizontal
    ensures w in Windows()
  {
    assert InBounds(CellOf(w, 0).0, CellOf(w, 0).1) && InBounds(CellOf(w, 3).0, CellOf(w, 3).1);
    assert Windows()[w.row * 4 + w.col] == w;
  }

  lemma VerticalListed(w: Window)
    requires Fits(w) && w.dir == Vertical
    ensures w in Windows()
  {
    assert InBounds(CellOf(w, 0).0, CellOf(w, 0).1) && InBounds(CellOf(w, 3).0, CellOf(w, 3).1);
    assert Windows()[24 + w.row * 7 + w.col] == w;
  }

  lemma DownRightListed(w: Window)
    requires Fits(w) && w.dir == DownRight
    ensures w in Windows()
  {
    assert InBounds(CellOf(w, 0).0, CellOf(w, 0).1) && InBounds(CellOf(w, 3).0, CellOf(w, 3).1);
    assert Windows()[45 + w.row * 4 + w.col] == w;
  }

  lemma DownLeftListed(w: Window)
    requires Fits(w) && w.dir == DownLeft
    ensures w in Windows()
  {
    assert InBounds(CellOf(w, 0).0, CellOf(w, 0).1) && InBounds(CellOf(w, 3).0, CellOf(w, 3).1);
    assert Windows()[57 + w.row * 4 + w.col - 3] == w;
  }

  /** The enumeration is complete: every window of four that fits on the
      board is visited. */
  lemma WindowsComplete(w: Window)
    requires Fits(w)
    ensures w in Windows()
  {
    match w.dir
    case Horizontal => HorizontalListed(w);
    case Vertical => VerticalListed(w);
    case DownRight => DownRightListed(w);
    case DownLeft => DownLeftListed(w);
  }

  /** Every cell of the window holds `p`. */
  predicate Complete(b: Board, w: Window, p: Player)
    requires WellFormed(b) && Fits(w)
  {
    forall i :: 0 <= i < 4 ==> At(b, CellOf(w, i)) == Piece(p)
  }

  predicate AllFit(ws: seq<Window>)
  {
    forall i :: 0 <= i < |ws| ==> Fits(ws[i])
  }

  /** The scan of `check_winner`: does some window of `ws` hold four of `p`? */
  function AnyComplete(b: Board, ws: seq<Window>, p: Player): bool
    requires WellFormed(b) && AllFit(ws)
  {
    if ws == [] then false
    else Complete(b, ws[0], p) || AnyComplete(b, ws[1..], p)
  }

  /** The scan answers yes exactly when one of the windows is complete. */
  lemma {:induction false} AnyCompleteFinds(b: Board, ws: seq<Window>, p: Player)
    requires WellFormed(b) && AllFit(ws)
    ensures AnyComplete(b, ws, p) <==> exists i :: 0 <= i < |ws| && Complete(b, ws[i], p)
  {
    if ws != [] {
      AnyCompleteFinds(b, ws[1..], p);
      if exists i :: 0 <= i < |ws| && Complete(b, ws[i], p) {
        var i :| 0 <= i < |ws| && Complete(b, ws[i], p);
        if i > 0 {
          assert ws[1..][i - 1] == ws[i];
        }
      }
    }
  }

  /** `check_winner`: the colour of the side given by `maximizing` when one
      of its windows is full of its pieces, and nothing otherwise. */
  function CheckWinner(b: Board, maximizing: bool): (r: Option<Player>)
    requires WellFormed(b)
    ensures r.Some? ==> r.value == SideOf(maximizing)
  {
    if AnyComplete(b, Windows(), SideOf(maximizing)) then Some(SideOf(maximizing)) else None
  }

  /** `check_winner` finds a winner exactly when some line of four cells
      anywhere on the board, in any of the four directions, is full of the
      side's pieces. */
  lemma CheckWinnerSound(b: Board, maximizing: bool)
    requires WellFormed(b)
    ensures CheckWinner(b, maximizing).Some? <==> exists w :: Fits(w) && Complete(b, w, SideOf(maximizing))
  {
    var p := SideOf(maximizing);
    AnyCompleteFinds(b, Windows(), p);
    if w :| Fits(w) && Complete(b, w, p) {
      WindowsComplete(w);
      var i :| 0 <= i < |Windows()| && Windows()[i] == w;
      assert Complete(b, Windows()[i], p);
    }
  }

  /** What `is_game_over` answers: "equal", a colour, or `False`. */
  datatype Status = Equal | Winner(p: Player) | NotOver

  /** `is_game_over`: a full board is "equal" whatever lines it holds;
      otherwise the answer of `check_winner` for the side given. */
  function IsGameOver(b: Board, maximizing: bool): (s: Status)
    requires WellFormed(b)
    ensures s.Winner? ==> s.p == SideOf(maximizing)
  {
    if IsFull(b) then Equal
    else match CheckWinner(b, maximizing)
      case Some(p) => Winner(p)
      case None => NotOver
  }

  /** The three answers of `is_game_over`: "equal" exactly for a full board,
      a winner exactly when the board is not full and the side has a line of
      four somewhere, and "not over" otherwise. */
  lemma IsGameOverCases(b: Board, maximizing: bool)
    requires WellFormed(b)
    ensures IsGameOver(b, maximizing) == Equal <==> IsFull(b)
    ensures IsGameOver(b, maximizing).Winner? <==>
      !IsFull(b) && exists w :: Fits(w) && Complete(b, w, SideOf(maximizing))
    ensures IsGameOver(b, maximizing) == NotOver <==>
      !IsFull(b) && forall w :: Fits(w) ==> !Complete(b, w, SideOf(maximizing))
  {
    CheckWinnerSound(b, maximizing);
  }

  /** `is_game_over` looks only at the side it is asked about: on a board
      that is not full, a four of the other colour does not end the game
      while the side asked about has no four of its own. */
  lemma GameOverIgnoresOtherSide(b: Board, maximizing: bool, w: Window)
    requires WellFormed(b) && !IsFull(b) && Fits(w)
    requires Complete(b, w, Other(SideOf(maximizing)))
    requires forall v :: Fits(v) ==> !Complete(b, v, SideOf(maximizing))
    ensures IsGameOver(b, maximizing) == NotOver
  {
    CheckWinnerSound(b, maximizing);
  }

  // ---------------------------------------------------------------------
  // Window scores

  /** `window.count(x)`. */
  function Count(cells: seq<Cell>, x: Cell): (n: nat)
    ensures n <= |cells|
  {
    if cells == [] then 0 else (if cells[0] == x then 1 else 0) + Count(cells[1..], x)
  }

  /** Every cell is empty or holds one of the two colours, so the three
      counts of a window add up to its length. */
  lemma {:induction false} CountsPartition(cells: seq<Cell>)
    ensures Count(cells, Empty) + Count(cells, Piece(Red)) + Count(cells, Piece(Yellow)) == |cells|
  {
    if cells != [] {
      CountsPartition(cells[1..]);
      match cells[0]
      case Empty =>
      case Piece(p) => assert p == Red || p == Yellow;
    }
  }

  /** A count equal to the length means every cell is that value. */
  lemma {:induction false} CountAll(cells: seq<Cell>, x: Cell)
    ensures Count(cells, x) == |cells| <==> forall i :: 0 <= i < |cells| ==> cells[i] == x
  {
    if cells != [] {
      CountAll(cells[1..], x);
      if Count(cells, x) == |cells| {
        forall i | 0 <= i < |cells| ensures cells[i] == x {
          if i > 0 { assert cells[i] == cells[1..][i - 1]; }
        }
      }
      if forall i :: 0 <= i < |cells| ==> cells[i] == x {
        assert forall i :: 0 <= i < |cells| - 1 ==> cells[1..][i] == cells[i + 1];
      }
    }
  }

  /** `evaluate_window`, the scorer an agent starts with. */
  function EvaluateWindow(cells: seq<Cell>, p: Player): (v: int)
    ensures v in {99999, 2, 1, -20, -99990, 0}
    ensures Count(cells, Piece(p)) == 4 ==> v == 99999
  {
    var mine := Count(cells, Piece(p));
    var theirs := Count(cells, Piece(Other(p)));
    var open := Count(cells, Empty);
    if mine == 4 then 99999
    else if mine == 3 && open == 1 then 2
    else if mine == 2 && open == 2 then 1
    else if theirs == 3 && open == 1 then -20
    else if theirs == 4 then -99990
    else 0
  }

  /** `easy_heuristic`, `medium_heuristic` and `expert_heuristic`, whose
      bodies are identical. */
  function LevelHeuristic(cells: seq<Cell>, p: Player): (v: int)
    ensures v in {99999, 10, 5, 2, -99990, 0}
    ensures Count(cells, Piece(p)) == 4 ==> v == 99999
    ensures Count(cells, Empty) == 4 && |cells| == 4 ==> v == 2
  {
    var mine := Count(cells, Piece(p));
    var theirs := Count(cells, Piece(Other(p)));
    var open := Count(cells, Empty);
    if mine == 4 then 99999
    else if mine == 3 && open == 1 then 10
    else if mine == 2 && open == 2 then 5
    else if open == 4 then 2
    else if theirs == 4 then -99990
    else 0
  }

  /** On a window of four, `evaluate_window` rewards only windows the
      opponent has not entered and penalises only windows the player has
      not entered; it is extreme exactly for a complete window. */
  lemma EvaluateWindowSigns(cells: seq<Cell>, p: Player)
    requires |cells| == 4
    ensures EvaluateWindow(cells, p) > 0 ==> Count(cells, Piece(Other(p))) == 0 && Count(cells, Piece(p)) >= 2
    ensures EvaluateWindow(cells, p) < 0 ==> Count(cells, Piece(p)) == 0 && Count(cells, Piece(Other(p))) >= 3
    ensures EvaluateWindow(cells, p) == 99999 <==> Count(cells, Piece(p)) == 4
    ensures EvaluateWindow(cells, p) == -99990 <==> Count(cells, Piece(Other(p))) == 4
  {
    CountsPartition(cells);
  }

  /** On a window of four, the level heuristics reward only windows the
      opponent has not entered and penalise only a window the opponent has
      completed. */
  lemma LevelHeuristicSigns(cells: seq<Cell>, p: Player)
    requires |cells| == 4
    ensures LevelHeuristic(cells, p) > 0 ==> Count(cells, Piece(Other(p))) == 0
    ensures LevelHeuristic(cells, p) < 0 <==> Count(cells, Piece(Other(p))) == 4
    ensures LevelHeuristic(cells, p) == 99999 <==> Count(cells, Piece(p)) == 4
  {
    CountsPartition(cells);
  }

  /** The window function an agent scores with: `evaluate_window` until a
      level is chosen, then the heuristic of that level. */
  datatype Scorer = Default | Easy | Medium | Expert

  /** The prologue of `get_chosen_column`: "easy", "medium" and "expert"
      select their heuristic; any other text keeps the scorer in use. */
  function SelectScorer(current: Scorer, heuristic: string): (s: Scorer)
    ensures s == Easy <==> heuristic == "easy" || (current == Easy && heuristic !in {"medium", "expert"})
    ensures s == Medium <==> heuristic == "medium" || (current == Medium && heuristic !in {"easy", "expert"})
    ensures s == Expert <==> heuristic == "expert" || (current == Expert && heuristic !in {"easy", "medium"})
    ensures s == Default <==> current == Default && heuristic !in {"easy", "medium", "expert"}
  {
    if heuristic == "easy" then Easy
    else if heuristic == "medium" then Medium
    else if heuristic == "expert" then Expert
    else current
  }

  /** `self.evaluate_window_function(window, player)`. */
  function Score(s: Scorer, cells: seq<Cell>, p: Player): (v: int)
    ensures -99990 <= v <= 99999
    ensures s != Default ==> v == LevelHeuristic(cells, p)
  {
    if s == Default then EvaluateWindow(cells, p) else LevelHeuristic(cells, p)
  }

  /** The sum `count_windows` accumulates over the windows `ws`. */
  function SumScores(b: Board, ws: seq<Window>, p: Player, s: Scorer): (total: int)
    requires WellFormed(b) && AllFit(ws)
    ensures -99990 * |ws| <= total <= 99999 * |ws|
  {
    if ws == [] then 0
    else Score(s, WindowCells(b, ws[0]), p) + SumScores(b, ws[1..], p, s)
  }

  /** `count_windows`: the score of every window of four for `p`. */
  function CountWindows(b: Board, p: Player, s: Scorer): (total: int)
    requires WellFormed(b)
    ensures -99990 * 69 <= total <= 99999 * 69
  {
    SumScores(b, Windows(), p, s)
  }

  /** `evaluate_state`: red's window score minus yellow's. */
  function EvaluateState(b: Board, s: Scorer): (v: int)
    requires WellFormed(b)
    ensures -(99999 + 99990) * 69 <= v <= (99999 + 99990) * 69
  {
    CountWindows(b, Red, s) - CountWindows(b, Yellow, s)
  }

  // ---------------------------------------------------------------------
  // Colour symmetry

  function SwapCell(x: Cell): (y: Cell)
    ensures y == Empty <==> x == Empty
    ensures x.Piece? ==> y == Piece(Other(x.owner))
  {
    match x
    case Empty => Empty
    case Piece(p) => Piece(Other(p))
  }

  /** The board with the two colours exchanged. */
  function Swap(b: Board): (b': Board)
    requires WellFormed(b)
    ensures WellFormed(b')
    ensures forall r, c :: InBounds(r, c) ==> b'[r][c] == SwapCell(b[r][c])
  {
    seq(ROWS, r requires 0 <= r < ROWS => seq(COLS, c requires 0 <= c < COLS => SwapCell(b[r][c])))
  }

  function SwapCells(cells: seq<Cell>): (out: seq<Cell>)
    ensures |out| == |cells|
    ensures forall i :: 0 <= i < |cells| ==> out[i] == SwapCell(cells[i])
  {
    seq(|cells|, i requires 0 <= i < |cells| => SwapCell(cells[i]))
  }

  /** Exchanging colours turns the count of one colour into the count of
      the other and keeps the count of empty cells. */
  lemma {:induction false} CountSwap(cells: seq<Cell>, x: Cell)
    ensures Count(SwapCells(cells), SwapCell(x)) == Count(cells, x)
  {
    if cells != [] {
      assert SwapCells(cells)[1..] == SwapCells(cells[1..]);
      CountSwap(cells[1..], x);
    }
  }

  /** A window scores the same for `p` as its colour-swapped copy does for
      the other colour. */
  lemma ScoreSwap(s: Scorer, cells: seq<Cell>, p: Player)
    ensures Score(s, SwapCells(cells), Other(p)) == Score(s, cells, p)
  {
    CountSwap(cells, Empty);
    CountSwap(cells, Piece(p));
    CountSwap(cells, Piece(Other(p)));
    assert Other(Other(p)) == p;
  }

  lemma {:induction false} SumScoresSwap(b: Board, ws: seq<Window>, p: Player, s: Scorer)
    requires WellFormed(b) && AllFit(ws)
    ensures SumScores(Swap(b), ws, Other(p), s) == SumScores(b, ws, p, s)
  {
    if ws != [] {
      assert WindowCells(Swap(b), ws[0]) == SwapCells(WindowCells(b, ws[0]));
      ScoreSwap(s, WindowCells(b, ws[0]), p);
      SumScoresSwap(b, ws[1..], p, s);
    }
  }

  /** The evaluation is antisymmetric in the colours: exchanging red and
      yellow negates the score of every position, whatever the scorer. */
  lemma EvaluateStateSwap(b: Board, s: Scorer)
    requires WellFormed(b)
    ensures EvaluateState(Swap(b), s) == -EvaluateState(b, s)
  {
    SumScoresSwap(b, Windows(), Red, s);
    SumScoresSwap(b, Windows(), Yellow, s);
  }

  /** The win check is symmetric in the colours: the swapped board has a
      four for the other side exactly when the board has one for this side. */
  lemma CheckWinnerSwap(b: Board, maximizing: bool)
    requires WellFormed(b)
    ensures CheckWinner(Swap(b), !maximizing).Some? <==> CheckWinner(b, maximizing).Some?
  {
    var p := SideOf(maximizing);
    var ws := Windows();
    assert SideOf(!maximizing) == Other(p);
    AnyCompleteFinds(b, ws, p);
    AnyCompleteFinds(Swap(b), ws, Other(p));
    forall i | 0 <= i < |ws|
      ensures Complete(Swap(b), ws[i], Other(p)) <==> Complete(b, ws[i], p)
    {
      var w := ws[i];
      if Complete(b, w, p) {
        forall k | 0 <= k < 4 ensures At(Swap(b), CellOf(w, k)) == Piece(Other(p)) {
          assert At(b, CellOf(w, k)) == Piece(p);
        }
      }
      if Complete(Swap(b), w, Other(p)) {
        forall k | 0 <= k < 4 ensures At(b, CellOf(w, k)) == Piece(p) {
          assert At(Swap(b), CellOf(w, k)) == Piece(Other(p));
        }
      }
    }
  }
}

=== FILE: agreement.dfy ===
/** The two win checks of the system agree. The client looks at the run
    through one cell along each of its four axes (`checkWin` in
    pyvezi_client/app.js); the backend looks at every window of four cells
    (`check_winner` in pyvezi_backend/game/agents.py). A colour has a cell
    where the client sees a win exactly when the backend finds a window full
    of that colour. */
module Agreement {
  import opened Grid
  import opened Agents
  import opened ClientEngine

  /** The client axis that runs in the same direction as a backend window:
      the two sides list the directions in the same order. */
  function AxisIndex(d: Direction): (i: int)
    ensures 0 <= i < |Axes|
  {
    match d
    case Horizontal => 0
    case Vertical => 1
    case DownRight => 2
    case DownLeft => 3
  }

  /** The backend direction of client axis `i`. */
  function DirectionOf(i: int): (d: Direction)
    requires 0 <= i < |Axes|
    ensures AxisIndex(d) == i
  {
    if i == 0 then Horizontal else if i == 1 then Vertical else if i == 2 then DownRight else DownLeft
  }

  /** Walking `m` steps and then `k` more is walking `m + k` steps. */
  lemma {:induction false} AlongShift(row: int, col: int, dr: int, dc: int, m: nat, k: nat)
    ensures var p := Along(row, col, dr, dc, m); Along(p.0, p.1, dr, dc, k) == Along(row, col, dr, dc, m + k)
    decreases m
  {
    if m > 0 {
      AlongShift(row + dr, col + dc, dr, dc, m - 1, k);
    }
  }

  /** Walking `t` steps along (dr, dc) and then `k` steps along the
      opposite vector (bdr, bdc) ends `t - k` steps out. */
  lemma AlongReturn(row: int, col: int, dr: int, dc: int, bdr: int, bdc: int, t: nat, k: nat)
    requires bdr == -dr && bdc == -dc && k <= t
    ensures var p := Along(row, col, dr, dc, t); Along(p.0, p.1, bdr, bdc, k) == Along(row, col, dr, dc, t - k)
  {
    var p := Along(row, col, dr, dc, t);
    AlongForward(row, col, dr, dc, t);
    AlongForward(p.0, p.1, bdr, bdc, k);
    AlongForward(row, col, dr, dc, t - k);
    assert dr * t + bdr * k == dr * (t - k);
    assert dc * t + bdc * k == dc * (t - k);
  }

  /** A backend window is full of `p` exactly when the four cells from its
      first cell along the matching client axis are on the board and hold
      `p`. */
  lemma WindowIsFour(b: Board, w: Window, p: Player)
    requires WellFormed(b)
    ensures var ax := Axes[AxisIndex(w.dir)];
      Fits(w) && Complete(b, w, p) <==> FourFrom(b, w.row, w.col, ax.0, ax.1, Piece(p))
  {
    var ax := Axes[AxisIndex(w.dir)];
    forall i | 0 <= i < 4
      ensures CellOf(w, i) == Along(w.row, w.col, ax.0, ax.1, i)
    {
      AlongForward(w.row, w.col, ax.0, ax.1, i);
    }
  }

  /** The cells from the end of the backward walk up to (row, col) hold
      the piece at (row, col). */
  lemma BehindCell(b: Board, row: int, col: int, dr: int, dc: int, i: nat)
    requires WellFormed(b) && InBounds(row, col)
    requires i < Reach(b, row, col, -dr, -dc, b[row][col], 1)
    ensures var start := Along(row, col, -dr, -dc, Reach(b, row, col, -dr, -dc, b[row][col], 1));
      Holds(b, Along(start.0, start.1, dr, dc, i), b[row][col])
  {
    var who := b[row][col];
    var bwd := Reach(b, row, col, -dr, -dc, who, 1);
    var start := Along(row, col, -dr, -dc, bwd);
    AlongReturn(row, col, -dr, -dc, dr, dc, bwd, i);
    assert Along(start.0, start.1, dr, dc, i) == Along(row, col, -dr, -dc, bwd - i);
    ReachHolds(b, row, col, -dr, -dc, who, 1, bwd - i);
  }

  /** The cells from (row, col) on, up to the end of the forward walk, hold
      the piece at (row, col); counted from the end of the backward walk
      they are the cells `bwd`, `bwd + 1`, and so on. */
  lemma AheadCell(b: Board, row: int, col: int, dr: int, dc: int, i: nat)
    requires WellFormed(b) && InBounds(row, col)
    requires var bwd := Reach(b, row, col, -dr, -dc, b[row][col], 1);
      bwd <= i <= bwd + Reach(b, row, col, dr, dc, b[row][col], 1)
    ensures var start := Along(row, col, -dr, -dc, Reach(b, row, col, -dr, -dc, b[row][col], 1));
      Holds(b, Along(start.0, start.1, dr, dc, i), b[row][col])
  {
    var who := b[row][col];
    var bwd := Reach(b, row, col, -dr, -dc, who, 1);
    var start := Along(row, col, -dr, -dc, bwd);
    AlongReturn(row, col, -dr, -dc, dr, dc, bwd, bwd);
    assert Along(start.0, start.1, dr, dc, bwd) == (row, col);
    AlongShift(start.0, start.1, dr, dc, bwd, i - bwd);
    assert Along(start.0, start.1, dr, dc, i) == Along(row, col, dr, dc, i - bwd);
    if i > bwd {
      ReachHolds(b, row, col, dr, dc, who, 1, i - bwd);
    }
  }

  /** A run of four or more through (row, col), as `checkDirection` counts
      it, contains four consecutive cells: the ones starting where the
      backward walk ends. */
  lemma RunHasFour(b: Board, row: int, col: int, dr: int, dc: int)
    requires WellFormed(b) && InBounds(row, col)
    requires RunLength(b, row, col, dr, dc) >= 4
    ensures var start := Along(row, col, -dr, -dc, Reach(b, row, col, -dr, -dc, b[row][col], 1));
      FourFrom(b, start.0, start.1, dr, dc, b[row][col])
  {
    var bwd := Reach(b, row, col, -dr, -dc, b[row][col], 1);
    var start := Along(row, col, -dr, -dc, bwd);
    forall i | 0 <= i < 4
      ensures Holds(b, Along(start.0, start.1, dr, dc, i), b[row][col])
    {
      if i < bwd {
        BehindCell(b, row, col, dr, dc, i);
      } else {
        AheadCell(b, row, col, dr, dc, i);
      }
    }
  }

  /** From the `t`-th of four consecutive cells holding `who`, the walk
      forward along their axis covers the `3 - t` cells after it. */
  lemma FourAhead(b: Board, row: int, col: int, dr: int, dc: int, who: Cell, t: nat)
    requires WellFormed(b) && FourFrom(b, row, col, dr, dc, who) && t < 4
    ensures var p := Along(row, col, dr, dc, t); Reach(b, p.0, p.1, dr, dc, who, 1) >= 3 - t
  {
    var p := Along(row, col, dr, dc, t);
    forall k | 1 <= k < 1 + (3 - t)
      ensures Holds(b, Along(p.0, p.1, dr, dc, k), who)
    {
      AlongShift(row, col, dr, dc, t, k);
      assert Holds(b, Along(row, col, dr, dc, t + k), who);
    }
    ReachCovers(b, p.0, p.1, dr, dc, who, 1, 3 - t);
  }

  /** From the `t`-th of four consecutive cells holding `who`, the walk
      backward covers the `t` cells before it. */
  lemma FourBehind(b: Board, row: int, col: int, dr: int, dc: int, who: Cell, t: nat)
    requires WellFormed(b) && FourFrom(b, row, col, dr, dc, who) && t < 4
    ensures var p := Along(row, col, dr, dc, t); Reach(b, p.0, p.1, -dr, -dc, who, 1) >= t
  {
    var p := Along(row, col, dr, dc, t);
    var ndr, ndc := -dr, -dc;
    forall k | 1 <= k < 1 + t
      ensures Holds(b, Along(p.0, p.1, ndr, ndc, k), who)
    {
      AlongReturn(row, col, dr, dc, ndr, ndc, t, k);
      assert Holds(b, Along(row, col, dr, dc, t - k), who);
    }
    ReachCovers(b, p.0, p.1, ndr, ndc, who, 1, t);
  }

  /** Every cell of four consecutive cells holding `who` has a run of at
      least four through it along their axis. */
  lemma FourGivesRun(b: Board, row: int, col: int, dr: int, dc: int, who: Cell, t: nat)
    requires WellFormed(b) && FourFrom(b, row, col, dr, dc, who) && t < 4
    ensures var p := Along(row, col, dr, dc, t);
      InBounds(p.0, p.1) && b[p.0][p.1] == who && RunLength(b, p.0, p.1, dr, dc) >= 4
  {
    var p := Along(row, col, dr, dc, t);
    assert Holds(b, p, who);
    FourAhead(b, row, col, dr, dc, who, t);
    FourBehind(b, row, col, dr, dc, who, t);
  }

  /** The client and the backend agree on who has won: `check_winner` finds
      a line of four for a side exactly when some cell of that side's colour
      wins by `checkWin`. */
  lemma WinChecksAgree(b: Board, maximizing: bool)
    requires WellFormed(b)
    ensures CheckWinner(b, maximizing).Some? <==>
      exists row, col :: InBounds(row, col) && b[row][col] == Piece(SideOf(maximizing)) && WinAt(b, row, col)
  {
    var p := SideOf(maximizing);
    CheckWinnerSound(b, maximizing);
    if CheckWinner(b, maximizing).Some? {
      var w :| Fits(w) && Complete(b, w, p);
      var ax := Axes[AxisIndex(w.dir)];
      WindowIsFour(b, w, p);
      FourGivesRun(b, w.row, w.col, ax.0, ax.1, Piece(p), 0);
      assert WinAt(b, w.row, w.col);
    }
    if exists row, col :: InBounds(row, col) && b[row][col] == Piece(p) && WinAt(b, row, col) {
      var row, col :| InBounds(row, col) && b[row][col] == Piece(p) && WinAt(b, row, col);
      var i :| 0 <= i < |Axes| && RunLength(b, row, col, Axes[i].0, Axes[i].1) >= 4;
      var dr, dc := Axes[i].0, Axes[i].1;
      RunHasFour(b, row, col, dr, dc);
      var start := Along(row, col, -dr, -dc, Reach(b, row, col, -dr, -dc, b[row][col], 1));
      var w := Window(DirectionOf(i), start.0, start.1);
      WindowIsFour(b, w, p);
      assert Fits(w) && Complete(b, w, p);
    }
  }

  /** A full window wins by `checkWin` at each of its cells. */
  lemma WindowWinsAtCells(b: Board, w: Window, p: Player, t: int)
    requires WellFormed(b) && Fits(w) && Complete(b, w, p) && 0 <= t < 4
    ensures InBounds(CellOf(w, t).0, CellOf(w, t).1) && WinAt(b, CellOf(w, t).0, CellOf(w, t).1)
  {
    var ax := Axes[AxisIndex(w.dir)];
    WindowIsFour(b, w, p);
    FourGivesRun(b, w.row, w.col, ax.0, ax.1, Piece(p), t);
    AlongForward(w.row, w.col, ax.0, ax.1, t);
    var cell := CellOf(w, t);
    assert Along(w.row, w.col, ax.0, ax.1, t) == cell;
    assert RunLength(b, cell.0, cell.1, Axes[AxisIndex(w.dir)].0, Axes[AxisIndex(w.dir)].1) >= 4;
  }

  /** A window that does not contain (row, col) reads the same before and
      after a piece is placed there. */
  lemma UntouchedWindow(b: Board, w: Window, row: int, col: int, x: Cell, p: Player)
    requires WellFormed(b) && InBounds(row, col) && Fits(w)
    requires forall i :: 0 <= i < 4 ==> CellOf(w, i) != (row, col)
    ensures Complete(Place(b, row, col, x), w, p) <==> Complete(b, w, p)
  {
  }

  /** Checking only the cell just filled is enough, which is what the
      client does after each move: when `p` had no line of four before, `p`
      has one after dropping a piece at (row, col) exactly when the run
      through (row, col) reaches four on some axis. */
  lemma LastMoveDecides(b: Board, row: int, col: int, p: Player)
    requires WellFormed(b) && InBounds(row, col)
    requires CheckWinner(b, p == Red).None?
    ensures CheckWinner(Place(b, row, col, Piece(p)), p == Red).Some? <==> WinAt(Place(b, row, col, Piece(p)), row, col)
  {
    var b' := Place(b, row, col, Piece(p));
    var maximizing := p == Red;
    assert SideOf(maximizing) == p;
    WinChecksAgree(b', maximizing);
    CheckWinnerSound(b, maximizing);
    CheckWinnerSound(b', maximizing);
    if CheckWinner(b', maximizing).Some? {
      var w :| Fits(w) && Complete(b', w, p);
      if forall i :: 0 <= i < 4 ==> CellOf(w, i) != (row, col) {
        UntouchedWindow(b, w, row, col, Piece(p), p);
        assert false;
      }
      var t :| 0 <= t < 4 && CellOf(w, t) == (row, col);
      WindowWinsAtCells(b', w, p, t);
    }
  }
}

=== FILE: client_engine.dfy ===
/** The game engine of the browser client: the `ConnectFour` class of
    pyvezi_client/app.js with its DOM, network and timing parts removed.
    The client state is a value (board, colour to move, mode, file content)
    and each handler is a method from one state to the next. */
module ClientEngine {
  import opened Grid
  import opened MoveFile

  /** Minimum time, in milliseconds, a computer move appears to take. */
  const MIN_MOVE_TIME: int := 1000

  // ---------------------------------------------------------------------
  // Gravity drop
  // ---------------------------------------------------------------------

  /** `findAvailableRow`: scans the column from the bottom row up and returns
      the first empty row. An index outside the board reads JavaScript's
      `undefined`, which never equals 0, so such a column has no row. */
  method FindAvailableRow(b: Board, col: int) returns (row: Option<int>)
    requires WellFormed(b)
    ensures row.None? <==> !IsColumn(col) || ColumnFull(b, col)
    ensures row.Some? ==> IsColumn(col) && IsLowestOpen(b, col, row.value)
  {
    var r := ROWS - 1;
    while r >= 0
      invariant -1 <= r < ROWS
      invariant IsColumn(col) ==> forall k :: r < k < ROWS ==> b[k][col] != Empty
    {
      if IsColumn(col) && b[r][col] == Empty {
        return Some(r);
      }
      r := r - 1;
    }
    return None;
  }

  // ---------------------------------------------------------------------
  // Win detection
  // ---------------------------------------------------------------------

  /** The axes in the order `checkWin` and `getWinningCells` try them:
      horizontal, vertical, diagonal down-right, diagonal down-left. */
  const Axes: seq<(int, int)> := [(0, 1), (1, 0), (1, 1), (1, -1)]

  /** How many of the steps `step`, `step + 1`, ..., 3 from (row, col) along
      (dr, dc) stay on the board and hold `who`, counted up to the first
      step that does not. */
  function Reach(b: Board, row: int, col: int, dr: int, dc: int, who: Cell, step: nat): (n: nat)
    requires WellFormed(b) && 1 <= step <= 4
    ensures step + n <= 4
    decreases 4 - step
  {
    if step == 4 || !Holds(b, Along(row, col, dr, dc, step), who) then 0
    else 1 + Reach(b, row, col, dr, dc, who, step + 1)
  }

  /** What `Reach` counts: the steps it covers all hold `who`, and the step
      right after them, if it is still at most 3, does not. */
  lemma {:induction false} ReachMatches(b: Board, row: int, col: int, dr: int, dc: int, who: Cell, step: nat)
    requires WellFormed(b) && 1 <= step <= 4
    ensures var n := Reach(b, row, col, dr, dc, who, step);
      && (forall k :: step <= k < step + n ==> Holds(b, Along(row, col, dr, dc, k), who))
      && (step + n <= 3 ==> !Holds(b, Along(row, col, dr, dc, step + n), who))
    decreases 4 - step
  {
    if step < 4 && Holds(b, Along(row, col, dr, dc, step), who) {
      ReachMatches(b, row, col, dr, dc, who, step + 1);
    }
  }

  /** One step `Reach` covers holds `who`. */
  lemma {:induction false} ReachHolds(b: Board, row: int, col: int, dr: int, dc: int, who: Cell, step: nat, k: int)
    requires WellFormed(b) && 1 <= step <= 4
    requires step <= k < step + Reach(b, row, col, dr, dc, who, step)
    ensures Holds(b, Along(row, col, dr, dc, k), who)
    decreases 4 - step
  {
    if k > step {
      ReachHolds(b, row, col, dr, dc, who, step + 1, k);
    }
  }

  /** `Reach` counts at least `m` steps when the `m` steps from `step` on
      all hold `who`. */
  lemma {:induction false} ReachCovers(b: Board, row: int, col: int, dr: int, dc: int, who: Cell, step: nat, m: nat)
    requires WellFormed(b) && 1 <= step <= 4 && step + m <= 4
    requires forall k :: step <= k < step + m ==> Holds(b, Along(row, col, dr, dc, k), who)
    ensures Reach(b, row, col, dr, dc, who, step) >= m
    decreases m
  {
    if m > 0 {
      ReachCovers(b, row, col, dr, dc, who, step + 1, m - 1);
    }
  }

  /** The run through (row, col) along (dr, dc) as `checkDirection` counts
      it: the cell itself, then at most three matching cells forward and at
      most three backward. */
  function RunLength(b: Board, row: int, col: int, dr: int, dc: int): nat
    requires WellFormed(b) && InBounds(row, col)
  {
    var who := b[row][col];
    1 + Reach(b, row, col, dr, dc, who, 1) + Reach(b, row, col, -dr, -dc, who, 1)
  }

  /** `checkWin`'s verdict: on some axis the run through the cell reaches four. */
  predicate WinAt(b: Board, row: int, col: int)
    requires WellFormed(b) && InBounds(row, col)
  {
    exists i :: 0 <= i < |Axes| && RunLength(b, row, col, Axes[i].0, Axes[i].1) >= 4
  }

  /** One of the two loops of `checkDirection`: steps 1, 2, 3 from
      (row, col) along (dr, dc), counting cells until one is off the board or
      holds something other than `who`. */
  method Walk(b: Board, row: int, col: int, dr: int, dc: int, who: Cell) returns (n: nat)
    requires WellFormed(b)
    ensures n == Reach(b, row, col, dr, dc, who, 1)
  {
    n := 0;
    var step := 1;
    while step <= 3
      invariant 1 <= step <= 4
      invariant n == step - 1
      invariant Reach(b, row, col, dr, dc, who, 1) == n + Reach(b, row, col, dr, dc, who, step)
    {
      var r := row + dr * step;
      var c := col + dc * step;
      AlongForward(row, col, dr, dc, step);
      if r < 0 || r >= ROWS || c < 0 || c >= COLS {
        break;
      }
      if b[r][c] != who {
        break;
      }
      n := n + 1;
      step := step + 1;
    }
  }

  /** `checkDirection`: the piece at (row, col) and the matching cells of
      the walks forward along (dr, dc) and backward along (-dr, -dc) make at
      least four. */
  method CheckDirection(b: Board, row: int, col: int, dr: int, dc: int) returns (win: bool)
    requires WellFormed(b) && InBounds(row, col)
    ensures win <==> RunLength(b, row, col, dr, dc) >= 4
  {
    var who := b[row][col];
    var forward := Walk(b, row, col, dr, dc, who);
    var backward := Walk(b, row, col, -dr, -dc, who);
    var count := 1 + forward + backward;
    win := count >= 4;
  }

  /** `checkWin`: tries the axes in order and stops at the first that wins. */
  method CheckWin(b: Board, row: int, col: int) returns (win: bool)
    requires WellFormed(b) && InBounds(row, col)
    ensures win <==> WinAt(b, row, col)
  {
    var i := 0;
    while i < |Axes|
      invariant 0 <= i <= |Axes|
      invariant forall j :: 0 <= j < i ==> RunLength(b, row, col, Axes[j].0, Axes[j].1) < 4
    {
      var w := CheckDirection(b, row, col, Axes[i].0, Axes[i].1);
      if w {
        return true;
      }
      i := i + 1;
    }
    return false;
  }

  /** `cells` lists the run along (dr, dc) in the order
      `getWinningCellsInDirection` produces it: (row, col), then the matching
      cells forward, nearest first, then the matching cells backward. */
  predicate ListsRun(cells: seq<Pos>, b: Board, row: int, col: int, dr: int, dc: int, who: Cell)
    requires WellFormed(b)
  {
    var fwd := Reach(b, row, col, dr, dc, who, 1);
    var bwd := Reach(b, row, col, -dr, -dc, who, 1);
    && |cells| == 1 + fwd + bwd
    && cells[0] == (row, col)
    && (forall k :: 1 <= k <= fwd ==> cells[k] == Along(row, col, dr, dc, k))
    && (forall k :: fwd < k < |cells| ==> cells[k] == Along(row, col, -dr, -dc, k - fwd))
  }

  /** A listed run starts at (row, col), every further cell is on the board
      and holds `who`, and for the piece at (row, col) it has exactly as many
      cells as `checkDirection` counts. */
  lemma ListedRunHolds(cells: seq<Pos>, b: Board, row: int, col: int, dr: int, dc: int, who: Cell)
    requires WellFormed(b) && ListsRun(cells, b, row, col, dr, dc, who)
    ensures 1 <= |cells| <= 7 && cells[0] == (row, col)
    ensures forall i :: 1 <= i < |cells| ==> Holds(b, cells[i], who)
    ensures InBounds(row, col) && who == b[row][col] ==>
      |cells| == RunLength(b, row, col, dr, dc) && forall i :: 0 <= i < |cells| ==> Holds(b, cells[i], who)
  {
    var fwd := Reach(b, row, col, dr, dc, who, 1);
    forall i | 1 <= i < |cells|
      ensures Holds(b, cells[i], who)
    {
      if i <= fwd {
        ReachHolds(b, row, col, dr, dc, who, 1, i);
      } else {
        ReachHolds(b, row, col, -dr, -dc, who, 1, i - fwd);
      }
    }
  }

  /** One of the two walks of `getWinningCellsInDirection`: the cells at
      steps 1, 2, 3 from (row, col) along (dr, dc), up to the first that is
      off the board or holds something other than `who`. The cell at step
      `k` is `(row + dr * k, col + dc * k)`, see `AlongForward`. */
  method CollectRun(b: Board, row: int, col: int, dr: int, dc: int, who: Cell) returns (cells: seq<Pos>)
    requires WellFormed(b)
    ensures |cells| == Reach(b, row, col, dr, dc, who, 1)
    ensures forall k :: 0 <= k < |cells| ==> cells[k] == Along(row, col, dr, dc, k + 1)
  {
    ghost var n := Reach(b, row, col, dr, dc, who, 1);
    cells := [];
    var step := 1;
    while step <= 3
      invariant 1 <= step <= 4
      invariant n == (step - 1) + Reach(b, row, col, dr, dc, who, step)
      invariant |cells| == step - 1
      invariant forall k :: 0 <= k < |cells| ==> cells[k] == Along(row, col, dr, dc, k + 1)
    {
      var (r, c) := Along(row, col, dr, dc, step);
      if !InBounds(r, c) || b[r][c] != who {
        break;
      }
      cells := cells + [(r, c)];
      step := step + 1;
    }
  }

  /** `getWinningCellsInDirection`: (row, col), then the walk forward, then
      the walk backward. */
  method GetWinningCellsInDirection(b: Board, row: int, col: int, dr: int, dc: int, who: Cell)
    returns (cells: seq<Pos>)
    requires WellFormed(b)
    ensures ListsRun(cells, b, row, col, dr, dc, who)
  {
    var ahead := CollectRun(b, row, col, dr, dc, who);
    var behind := CollectRun(b, row, col, -dr, -dc, who);
    cells := [(row, col)] + ahead + behind;
    forall k | 1 <= k <= |ahead|
      ensures cells[k] == Along(row, col, dr, dc, k)
    {
      assert cells[k] == ahead[k - 1];
    }
    forall k | |ahead| < k < |cells|
      ensures cells[k] == Along(row, col, -dr, -dc, k - |ahead|)
    {
      assert cells[k] == behind[k - 1 - |ahead|];
    }
  }

  /** Axis `i` is the first, in `checkWin`'s order, whose run reaches four. */
  predicate FirstWinningAxis(b: Board, row: int, col: int, i: int)
    requires WellFormed(b) && InBounds(row, col)
  {
    && 0 <= i < |Axes|
    && RunLength(b, row, col, Axes[i].0, Axes[i].1) >= 4
    && forall j :: 0 <= j < i ==> RunLength(b, row, col, Axes[j].0, Axes[j].1) < 4
  }

  /** `getWinningCells`: the run of the first winning axis, or no cells at all. */
  method GetWinningCells(b: Board, row: int, col: int) returns (cells: seq<Pos>)
    requires WellFormed(b) && InBounds(row, col)
    ensures |cells| >= 4 <==> WinAt(b, row, col)
    ensures !WinAt(b, row, col) ==> cells == []
    ensures WinAt(b, row, col) ==>
      exists i :: FirstWinningAxis(b, row, col, i) && ListsRun(cells, b, row, col, Axes[i].0, Axes[i].1, b[row][col])
    ensures WinAt(b, row, col) ==> cells[0] == (row, col)
    ensures forall k :: 0 <= k < |cells| ==> Holds(b, cells[k], b[row][col])
  {
    var who := b[row][col];
    var i := 0;
    while i < |Axes|
      invariant 0 <= i <= |Axes|
      invariant forall j :: 0 <= j < i ==> RunLength(b, row, col, Axes[j].0, Axes[j].1) < 4
    {
      cells := GetWinningCellsInDirection(b, row, col, Axes[i].0, Axes[i].1, who);
      ListedRunHolds(cells, b, row, col, Axes[i].0, Axes[i].1, who);
      if |cells| >= 4 {
        assert FirstWinningAxis(b, row, col, i);
        return;
      }
      i := i + 1;
    }
    cells := [];
  }

  // ---------------------------------------------------------------------
  // Draw detection
  // ---------------------------------------------------------------------

  /** `checkDraw`: every cell of every row is occupied. */
  method CheckDraw(b: Board) returns (full: bool)
    requires WellFormed(b)
    ensures full <==> IsFull(b)
  {
    var r := 0;
    while r < ROWS
      invariant 0 <= r <= ROWS
      invariant forall i, j :: 0 <= i < r && 0 <= j < COLS ==> b[i][j] != Empty
    {
      var c := 0;
      while c < COLS
        invariant 0 <= c <= COLS
        invariant forall j :: 0 <= j < c ==> b[r][j] != Empty
      {
        if b[r][c] == Empty {
          return false;
        }
        c := c + 1;
      }
      r := r + 1;
    }
    return true;
  }

  // ---------------------------------------------------------------------
  // Turns
  // ---------------------------------------------------------------------

  /** `gameMode`: the two computer modes are recognised by name; any other
      value, the empty string before a mode is chosen included, lets humans
      play both colours. */
  datatype Mode = ManVsMan | ManVsComputer | ComputerVsComputer

  /** The engine state: `board`, `currentPlayer`, `gameMode` and `fileContent`. */
  datatype Game = Game(board: Board, current: Player, mode: Mode, fileContent: string)

  /** How `makeMove` ends: a win with the cells it highlights, a draw, or a
      change of turn. */
  datatype Outcome = Won(cells: seq<Pos>) | Drawn | NextTurn

  /** `makeMove`: writes the colour to move into the cell, logs the column
      unless the move is replayed from a file, and then either reports a win,
      reports a draw, or hands the turn to the other colour. */
  method MakeMove(g: Game, row: int, col: int, fromFile: bool) returns (g': Game, outcome: Outcome)
    requires WellFormed(g.board) && InBounds(row, col)
    ensures g'.board == Place(g.board, row, col, Piece(g.current))
    ensures g'.mode == g.mode
    ensures g'.fileContent == if fromFile then g.fileContent else g.fileContent + ColumnLine(col)
    ensures outcome.Won? <==> WinAt(g'.board, row, col)
    ensures outcome.Won? ==> |outcome.cells| >= 4 && outcome.cells[0] == (row, col)
    ensures outcome.Won? ==> forall i :: 0 <= i < |outcome.cells| ==> Holds(g'.board, outcome.cells[i], Piece(g.current))
    ensures outcome.Won? ==>
      exists i :: FirstWinningAxis(g'.board, row, col, i) && ListsRun(outcome.cells, g'.board, row, col, Axes[i].0, Axes[i].1, Piece(g.current))
    ensures outcome.Drawn? <==> !WinAt(g'.board, row, col) && IsFull(g'.board)
    ensures g'.current == if outcome.NextTurn? then Other(g.current) else g.current
  {
    var board := Place(g.board, row, col, Piece(g.current));
    var content := if fromFile then g.fileContent else g.fileContent + ColumnLine(col);
    g' := g.(board := board, fileContent := content);
    var win := CheckWin(board, row, col);
    if win {
      var cells := GetWinningCells(board, row, col);
      return g', Won(cells);
    }
    var draw := CheckDraw(board);
    if draw {
      return g', Drawn;
    }
    g' := g'.(current := Other(g.current));
    outcome := NextTurn;
  }

  /** Clicks are ignored while a computer is to move. */
  predicate ComputerToMove(g: Game)
  {
    g.mode == ComputerVsComputer || (g.mode == ManVsComputer && g.current == Yellow)
  }

  /** `handleClick`: a human drop into column `col`. Ignored while a computer
      is to move and when the column has no empty cell; otherwise the piece
      lands on the lowest empty cell and the column is logged. */
  method HandleClick(g: Game, col: int) returns (g': Game)
    requires WellFormed(g.board)
    ensures WellFormed(g'.board) && g'.mode == g.mode
    ensures ComputerToMove(g) ==> g' == g
    ensures !IsColumn(col) || ColumnFull(g.board, col) ==> g' == g
    ensures !ComputerToMove(g) && IsColumn(col) && !ColumnFull(g.board, col) ==>
      exists row :: IsLowestOpen(g.board, col, row)
        && g'.board == Place(g.board, row, col, Piece(g.current))
        && g'.fileContent == g.fileContent + ColumnLine(col)
        && g'.current == (if WinAt(g'.board, row, col) || IsFull(g'.board) then g.current else Other(g.current))
    ensures Gravity(g.board) ==> Gravity(g'.board)
  {
    if ComputerToMove(g) {
      return g;
    }
    var row := FindAvailableRow(g.board, col);
    if row.None? {
      return g;
    }
    if Gravity(g.board) {
      DropKeepsGravity(g.board, col, row.value, Piece(g.current));
    }
    var outcome;
    g', outcome := MakeMove(g, row.value, col, false);
  }

  // ---------------------------------------------------------------------
  // Replay of a loaded move file
  // ---------------------------------------------------------------------

  function MinInt(a: int, b: int): int
  {
    if a <= b then a else b
  }

  /** Column `col` holds pieces in exactly its bottom `n` cells. */
  predicate ColumnHeight(b: Board, col: int, n: int)
    requires WellFormed(b) && IsColumn(col)
  {
    forall r :: 0 <= r < ROWS ==> (b[r][col] != Empty <==> r >= ROWS - n)
  }

  /** Boards whose columns are all filled from the bottom obey gravity. */
  lemma HeightsGiveGravity(b: Board, heights: seq<int>)
    requires WellFormed(b) && |heights| == COLS
    requires forall c :: 0 <= c < COLS ==> ColumnHeight(b, c, heights[c])
    ensures Gravity(b)
  {
    forall c, r1, r2 | 0 <= c < COLS && 0 <= r1 <= r2 < ROWS && b[r1][c] != Empty
      ensures b[r2][c] != Empty
    {
      assert ColumnHeight(b, c, heights[c]);
    }
  }

  /** A column of height `n` is full exactly when `n` reaches the number of
      rows, and otherwise its lowest open row is the one just above the pile. */
  lemma HeightLowestOpen(b: Board, col: int, n: int)
    requires WellFormed(b) && IsColumn(col) && 0 <= n <= ROWS
    requires ColumnHeight(b, col, n)
    ensures ColumnFull(b, col) <==> n == ROWS
    ensures n < ROWS ==> IsLowestOpen(b, col, ROWS - 1 - n)
  {
    if n < ROWS {
      assert b[ROWS - 1 - n][col] == Empty;
    }
  }

  /** `handleFileUpload` once the file's text has been read: the columns it
      names become the stored moves; when there is at least one, red is to
      move and the file content restarts as the loaded text and a line break.
      A file naming no column leaves the game as it was. */
  function LoadFile(g: Game, text: string): (r: (Game, seq<int>))
    ensures AllColumns(r.1) && |r.1| <= |Tokens(text)|
    ensures r.0.board == g.board && r.0.mode == g.mode
    ensures r.1 == [] ==> r.0 == g
    ensures r.1 != [] ==> r.0.current == Red && r.0.fileContent == text + "\n"
  {
    var stored := ParseMoveFile(text);
    if stored == [] then (g, stored)
    else (g.(current := Red, fileContent := text + "\n"), stored)
  }

  /** After a file with moves is loaded and further moves are logged, the
      file content parses to the stored moves followed by the new ones: the
      column list a later load would replay, not the board it rebuilds. */
  lemma LoadedLogReplays(g: Game, text: string, cols: seq<int>)
    requires AllColumns(cols)
    requires LoadFile(g, text).1 != []
    ensures ParseMoveFile(LoadFile(g, text).0.fileContent + LogText(cols)) == LoadFile(g, text).1 + cols
  {
    ParseAfterLoadedFile(text, cols);
  }

  /** `createBoard` with stored moves: starts from an empty board and drops
      each stored column in turn through `makeMove`, without logging it.
      A column with no room, or an index that is not a column, is skipped
      silently, so every column ends up with as many pieces as it was named,
      up to the number of rows. */
  method CreateBoard(g: Game, stored: seq<int>) returns (g': Game)
    ensures WellFormed(g'.board) && Gravity(g'.board)
    ensures forall c :: IsColumn(c) ==> ColumnHeight(g'.board, c, MinInt(ROWS, multiset(stored)[c]))
    ensures g'.mode == g.mode && g'.fileContent == g.fileContent
  {
    g' := g.(board := EmptyBoard());
    var i := 0;
    while i < |stored|
      invariant 0 <= i <= |stored|
      invariant WellFormed(g'.board)
      invariant g'.mode == g.mode && g'.fileContent == g.fileContent
      invariant forall c :: IsColumn(c) ==> ColumnHeight(g'.board, c, MinInt(ROWS, multiset(stored[..i])[c]))
    {
      var col := stored[i];
      assert stored[..i + 1] == stored[..i] + [col];
      var row := FindAvailableRow(g'.board, col);
      if row.Some? {
        HeightLowestOpen(g'.board, col, MinInt(ROWS, multiset(stored[..i])[col]));
        ghost var before := g'.board;
        var outcome;
        g', outcome := MakeMove(g', row.value, col, true);
        assert forall c :: IsColumn(c) && c != col ==> forall r :: 0 <= r < ROWS ==> g'.board[r][c] == before[r][c];
      } else if IsColumn(col) {
        HeightLowestOpen(g'.board, col, MinInt(ROWS, multiset(stored[..i])[col]));
      }
      i := i + 1;
    }
    assert stored[..i] == stored;
    HeightsGiveGravity(g'.board, seq(COLS, c => MinInt(ROWS, multiset(stored)[c])));
  }

  // ---------------------------------------------------------------------
  // Minimum think time
  // ---------------------------------------------------------------------

  /** `ensureMinimumDelay`: how long to sleep once the opponent's answer
      arrived `elapsed` milliseconds after the request started, so that the
      move is applied no sooner than the minimum think time. */
  function ThinkDelay(elapsed: int): (wait: int)
    ensures wait >= 0
    ensures elapsed + wait >= MIN_MOVE_TIME
    ensures wait > 0 ==> elapsed + wait == MIN_MOVE_TIME
  {
    if elapsed < MIN_MOVE_TIME then MIN_MOVE_TIME - elapsed else 0
  }
}

=== FILE: grid.dfy ===
/** The Connect-Four grid shared by the browser client and the Python backend:
    six rows (row 0 at the top, row 5 at the bottom) of seven columns.
    Both sides store a cell as "empty" or a colour; the client writes 0 for
    empty and the backend None, and this module uses one three-valued cell
    for both. */
module Grid {

  const ROWS: int := 6
  const COLS: int := 7

  datatype Option<T> = None | Some(value: T)

  datatype Player = Red | Yellow

  /** The colour that moves after `p`. */
  function Other(p: Player): (q: Player)
    ensures q != p
    ensures q == Red || p == Red
  {
    if p == Red then Yellow else Red
  }

  datatype Cell = Empty | Piece(owner: Player)

  type Board = seq<seq<Cell>>

  /** Position of a cell as a (row, column) pair. */
  type Pos = (int, int)

  predicate WellFormed(b: Board)
  {
    |b| == ROWS && forall r :: 0 <= r < ROWS ==> |b[r]| == COLS
  }

  /** The client's `isValidCell`: the cell lies on the 6×7 board. */
  predicate InBounds(row: int, col: int)
  {
    0 <= row < ROWS && 0 <= col < COLS
  }

  predicate IsColumn(col: int)
  {
    0 <= col < COLS
  }

  /** Every entry names a column of the board. */
  predicate AllColumns(cols: seq<int>)
  {
    forall i :: 0 <= i < |cols| ==> IsColumn(cols[i])
  }

  function EmptyBoard(): (b: Board)
    ensures WellFormed(b)
    ensures forall r, c :: InBounds(r, c) ==> b[r][c] == Empty
  {
    seq(ROWS, _ => seq(COLS, _ => Empty))
  }

  /** Writes `x` into one cell; this is the only way a board changes. */
  function Place(b: Board, row: int, col: int, x: Cell): (b': Board)
    requires WellFormed(b) && InBounds(row, col)
    ensures WellFormed(b')
    ensures b'[row][col] == x
    ensures forall r, c :: InBounds(r, c) && (r != row || c != col) ==> b'[r][c] == b[r][c]
  {
    b[row := b[row][col := x]]
  }

  /** Every cell holds a piece: the draw condition. */
  predicate IsFull(b: Board)
    requires WellFormed(b)
  {
    forall r, c :: 0 <= r < ROWS && 0 <= c < COLS ==> b[r][c] != Empty
  }

  predicate ColumnFull(b: Board, col: int)
    requires WellFormed(b) && IsColumn(col)
  {
    forall r :: 0 <= r < ROWS ==> b[r][col] != Empty
  }

  /** `row` is the bottom-most empty cell of `col`: where a dropped piece lands. */
  predicate IsLowestOpen(b: Board, col: int, row: int)
    requires WellFormed(b) && IsColumn(col)
  {
    && 0 <= row < ROWS
    && b[row][col] == Empty
    && forall r :: row < r < ROWS ==> b[r][col] != Empty
  }

  /** Gravity: in every column the occupied cells sit on top of each other
      from the bottom row up, so below an occupied cell every cell is occupied. */
  predicate Gravity(b: Board)
    requires WellFormed(b)
  {
    forall c, r1, r2 :: 0 <= c < COLS && 0 <= r1 <= r2 < ROWS && b[r1][c] != Empty ==> b[r2][c] != Empty
  }

  /** Dropping a piece where gravity lets it land keeps gravity, and changes
      no other cell. */
  lemma DropKeepsGravity(b: Board, col: int, row: int, x: Cell)
    requires WellFormed(b) && IsColumn(col) && Gravity(b)
    requires IsLowestOpen(b, col, row)
    ensures Gravity(Place(b, row, col, x))
  {
  }

  /** The cell `k` steps from (row, col) along the vector (dr, dc). */
  function Along(row: int, col: int, dr: int, dc: int, k: nat): Pos
    decreases k
  {
    if k == 0 then (row, col) else Along(row + dr, col + dc, dr, dc, k - 1)
  }

  /** Stepping `k` times by (dr, dc) adds `k` times the vector. */
  lemma {:induction false} AlongForward(row: int, col: int, dr: int, dc: int, k: nat)
    ensures Along(row, col, dr, dc, k) == (row + dr * k, col + dc * k)
    decreases k
  {
    if k > 0 {
      AlongForward(row + dr, col + dc, dr, dc, k - 1);
      assert dr * k == dr + dr * (k - 1);
      assert dc * k == dc + dc * (k - 1);
    }
  }

  /** `pos` is on the board and holds `who`. */
  predicate Holds(b: Board, pos: Pos, who: Cell)
    requires WellFormed(b)
  {
    InBounds(pos.0, pos.1) && b[pos.0][pos.1] == who
  }

  /** Four consecutive cells from (row, col) along (dr, dc) are on the board
      and all hold `who`. */
  predicate FourFrom(b: Board, row: int, col: int, dr: int, dc: int, who: Cell)
    requires WellFormed(b)
  {
    forall i :: 0 <= i < 4 ==> Holds(b, Along(row, col, dr, dc, i), who)
  }
}

=== FILE: move_file.dfy ===
/** The move file: the text the client accumulates while a game is played
    (each move's column followed by a line break) and the reader that turns
    such a text back into the list of columns to replay. */
module MoveFile {
  import opened Grid

  /** The characters of JavaScript's `\s` class, which are also the ones
      `trim()` removes: tab, line feed, vertical tab, form feed, carriage
      return, space, the no-break spaces, the Unicode space separators, the
      line and paragraph separators and the byte-order mark. */
  predicate IsSpace(ch: char)
  {
    var c := ch as int;
    || 9 <= c <= 13 || c == 0x20 || c == 0xA0 || c == 0x1680 || 0x2000 <= c <= 0x200A
    || c == 0x2028 || c == 0x2029 || c == 0x202F || c == 0x205F || c == 0x3000 || c == 0xFEFF
  }

  predicate IsDigit(ch: char)
  {
    '0' <= ch <= '9'
  }

  predicate AllDigits(t: string)
  {
    forall i :: 0 <= i < |t| ==> IsDigit(t[i])
  }

  /** Length of the run of non-space characters at the start of `s`. */
  function WordLength(s: string): (n: nat)
    ensures n <= |s|
    ensures forall i :: 0 <= i < n ==> !IsSpace(s[i])
    ensures n == |s| || IsSpace(s[n])
  {
    if s == [] || IsSpace(s[0]) then 0 else 1 + WordLength(s[1..])
  }

  /** The maximal runs of non-space characters of `s`, in order: what
      `text.trim().split(/\s+/)` yields for a text holding at least one token. */
  function Tokens(s: string): (toks: seq<string>)
    decreases |s|
  {
    if s == [] then []
    else if IsSpace(s[0]) then Tokens(s[1..])
    else
      var n := WordLength(s);
      [s[..n]] + Tokens(s[n..])
  }

  /** Every token is a non-empty run of non-space characters of the text. */
  lemma {:induction false} TokensAreWords(s: string, k: int)
    requires 0 <= k < |Tokens(s)|
    ensures |Tokens(s)[k]| > 0
    ensures forall i :: 0 <= i < |Tokens(s)[k]| ==> !IsSpace(Tokens(s)[k][i])
    decreases |s|
  {
    if IsSpace(s[0]) {
      TokensAreWords(s[1..], k);
    } else if k > 0 {
      TokensAreWords(s[WordLength(s)..], k - 1);
    }
  }

  /** The value of a string of decimal digits. */
  function DigitsValue(t: string): (v: nat)
    requires AllDigits(t)
    decreases |t|
  {
    if t == [] then 0 else 10 * DigitsValue(t[..|t| - 1]) + (t[|t| - 1] as int - '0' as int)
  }

  /** `Number(token)` for the tokens this model reads: a non-empty string of
      decimal digits denotes its value, anything else is not a number. */
  function ParseToken(t: string): (v: Option<int>)
    ensures v.Some? <==> |t| > 0 && AllDigits(t)
    ensures v.Some? ==> v.value >= 0
  {
    if |t| > 0 && AllDigits(t) then Some(DigitsValue(t)) else None
  }

  /** The token denotes a column of the board. */
  predicate IsColumnToken(t: string)
  {
    var v := ParseToken(t);
    v.Some? && IsColumn(v.value)
  }

  /** The filter of `parseMoveFile`: keeps the tokens that denote a column. */
  function KeepColumns(toks: seq<string>): (cols: seq<int>)
    ensures |cols| <= |toks|
    ensures forall i :: 0 <= i < |cols| ==> IsColumn(cols[i])
    ensures |cols| == |toks| <==> forall i :: 0 <= i < |toks| ==> IsColumnToken(toks[i])
  {
    if toks == [] then []
    else
      (if IsColumnToken(toks[0]) then [ParseToken(toks[0]).value] else []) + KeepColumns(toks[1..])
  }

  /** `parseMoveFile`: the columns named in `text`, dropping every token that
      is not a number in [0, COLS). */
  function ParseMoveFile(text: string): (cols: seq<int>)
    ensures forall i :: 0 <= i < |cols| ==> IsColumn(cols[i])
    ensures |cols| <= |Tokens(text)|
  {
    KeepColumns(Tokens(text))
  }

  /** Filtering a concatenation filters each part: the surviving tokens keep
      their relative order. */
  lemma {:induction false} KeepColumnsAppend(a: seq<string>, b: seq<string>)
    ensures KeepColumns(a + b) == KeepColumns(a) + KeepColumns(b)
    decreases |a|
  {
    if a == [] {
      assert a + b == b;
    } else {
      assert (a + b)[1..] == a[1..] + b;
      KeepColumnsAppend(a[1..], b);
    }
  }

  function Digit(col: int): (ch: char)
    requires IsColumn(col)
    ensures IsDigit(ch)
  {
    ('0' as int + col) as char
  }

  /** The line `makeMove` appends to the file content for a move: `col + "\n"`. */
  function ColumnLine(col: int): (line: string)
    requires IsColumn(col)
    ensures |line| == 2 && IsSpace(line[1]) && !IsSpace(line[0])
    ensures ParseToken(line[..1]) == Some(col)
  {
    var line := [Digit(col), '\n'];
    assert DigitsValue(line[..1]) == DigitsValue([]) * 10 + col;
    line
  }

  /** The file content written for a sequence of moves, one line per move. */
  function LogText(cols: seq<int>): string
    requires AllColumns(cols)
  {
    if cols == [] then "" else ColumnLine(cols[0]) + LogText(cols[1..])
  }

  /** Appending one move's line extends the text of the moves by that move. */
  lemma {:induction false} LogTextAppend(cols: seq<int>, col: int)
    requires AllColumns(cols) && IsColumn(col)
    ensures AllColumns(cols + [col])
    ensures LogText(cols + [col]) == LogText(cols) + ColumnLine(col)
    decreases |cols|
  {
    if cols == [] {
      assert LogText([col]) == ColumnLine(col) + LogText([]);
    } else {
      assert (cols + [col])[1..] == cols[1..] + [col];
      LogTextAppend(cols[1..], col);
    }
  }

  /** The word at the start of `s` is not affected by what follows a space
      after it. */
  lemma {:induction false} WordLengthBeforeSpace(s: string, ch: char, t: string)
    requires IsSpace(ch)
    ensures WordLength(s + [ch] + t) == WordLength(s)
    decreases |s|
  {
    if s == [] {
    } else if !IsSpace(s[0]) {
      assert (s + [ch] + t)[1..] == s[1..] + [ch] + t;
      WordLengthBeforeSpace(s[1..], ch, t);
    }
  }

  /** Tokenizing text joined by a whitespace character tokenizes each side. */
  lemma {:induction false} TokensSplitAtSpace(s: string, ch: char, t: string)
    requires IsSpace(ch)
    ensures Tokens(s + [ch] + t) == Tokens(s) + Tokens(t)
    decreases |s|
  {
    var u := s + [ch] + t;
    if s == [] {
      assert u[1..] == t;
    } else if IsSpace(s[0]) {
      assert u[1..] == s[1..] + [ch] + t;
      TokensSplitAtSpace(s[1..], ch, t);
    } else {
      var n := WordLength(s);
      WordLengthBeforeSpace(s, ch, t);
      assert u[..n] == s[..n];
      assert u[n..] == s[n..] + [ch] + t;
      TokensSplitAtSpace(s[n..], ch, t);
      assert Tokens(u) == [s[..n]] + Tokens(u[n..]);
      assert Tokens(s) == [s[..n]] + Tokens(s[n..]);
    }
  }

  /** A single non-space character is one token. */
  lemma TokensOfChar(ch: char)
    requires !IsSpace(ch)
    ensures Tokens([ch]) == [[ch]]
  {
    assert [ch][1..] == [];
    assert WordLength([ch]) == 1;
    assert [ch][..1] == [ch] && [ch][1..] == [];
  }

  /** Round trip: reading back the file content written for a game yields
      exactly the columns that were played. */
  lemma {:induction false} ParseLogRoundTrip(cols: seq<int>)
    requires AllColumns(cols)
    ensures ParseMoveFile(LogText(cols)) == cols
    decreases |cols|
  {
    if cols != [] {
      var line := ColumnLine(cols[0]);
      var rest := LogText(cols[1..]);
      assert LogText(cols) == [line[0]] + [line[1]] + rest;
      TokensSplitAtSpace([line[0]], line[1], rest);
      TokensOfChar(line[0]);
      assert [line[0]] == line[..1];
      KeepColumnsAppend([[line[0]]], Tokens(rest));
      assert KeepColumns([[line[0]]]) == [cols[0]];
      ParseLogRoundTrip(cols[1..]);
    }
  }

  /** A loaded file is kept at the head of the file content, followed by a
      line break and then the moves played afterwards; reading that content
      back yields the loaded columns followed by the new moves. */
  lemma ParseAfterLoadedFile(text: string, cols: seq<int>)
    requires AllColumns(cols)
    ensures ParseMoveFile(text + "\n" + LogText(cols)) == ParseMoveFile(text) + cols
  {
    TokensSplitAtSpace(text, '\n', LogText(cols));
    KeepColumnsAppend(Tokens(text), Tokens(LogText(cols)));
    ParseLogRoundTrip(cols);
  }
}

=== FILE: search.dfy ===
/** The game-tree searches behind `get_chosen_column`: the alpha-beta
    minimax of `MinMaxABAgent` and the negscout of `NegScoutAgent`
    (pyvezi_backend/game/agents.py), with scores that may be Python's
    positive or negative infinity. Red is the maximizing side. */
module Search {
  import opened Grid
  import opened Agents

  /** A search score: a whole number or one of the two infinities. */
  datatype Value = NegInf | Fin(n: int) | PosInf

  /** The largest magnitude `evaluate_state` can reach. */
  const BOUND: int := (99999 + 99990) * 69

  /** `a < b` on scores. */
  predicate Below(a: Value, b: Value)
  {
    || (a.NegInf? && !b.NegInf?)
    || (a.Fin? && b.PosInf?)
    || (a.Fin? && b.Fin? && a.n < b.n)
  }

  function Max(a: Value, b: Value): (m: Value)
    ensures m == a || m == b
    ensures !Below(m, a) && !Below(m, b)
  {
    if Below(a, b) then b else a
  }

  function Min(a: Value, b: Value): (m: Value)
    ensures m == a || m == b
    ensures !Below(a, m) && !Below(b, m)
  {
    if Below(b, a) then b else a
  }

  /** Unary minus; it reverses the order. */
  function Neg(a: Value): (m: Value)
    ensures a.Fin? <==> m.Fin?
    ensures a.Fin? ==> m.n == -a.n
    ensures a == PosInf <==> m == NegInf
  {
    match a
    case NegInf => PosInf
    case Fin(x) => Fin(-x)
    case PosInf => NegInf
  }

  /** `a - 1`; the infinities absorb it. */
  function Pred(a: Value): (m: Value)
    ensures a.Fin? <==> m.Fin?
    ensures a.Fin? ==> m.n == a.n - 1
    ensures !a.Fin? ==> m == a
  {
    match a
    case Fin(x) => Fin(x - 1)
    case _ => a
  }

  /** Negation reverses the order of scores. */
  lemma NegReversesOrder(a: Value, b: Value)
    ensures Below(a, b) <==> Below(Neg(b), Neg(a))
    ensures Neg(Neg(a)) == a
  {
  }

  /** A finite score lies within what a position can evaluate to. */
  predicate InRange(v: Value)
  {
    v.Fin? ==> -BOUND <= v.n <= BOUND
  }

  /** The score of a position where the search stops: a win for red is
      plus infinity, a win for yellow minus infinity, a full board zero, and
      anything else the heuristic evaluation. */
  function LeafValue(b: Board, status: Status, s: Scorer): (v: Value)
    requires WellFormed(b)
    ensures InRange(v)
    ensures v == PosInf <==> status == Winner(Red)
    ensures v == NegInf <==> status == Winner(Yellow)
  {
    match status
    case Winner(Red) => PosInf
    case Winner(Yellow) => NegInf
    case Equal => Fin(0)
    case NotOver => Fin(EvaluateState(b, s))
  }

  /** The pair a search returns: its score and the column it prefers. */
  datatype Choice = Choice(score: Value, col: Option<int>)

  /** The inner `minimax` of `MinMaxABAgent.get_chosen_column`. */
  function Minimax(b: Board, depth: nat, alpha: Value, beta: Value, maximizing: bool, s: Scorer): (r: Choice)
    requires WellFormed(b)
    ensures r.col.Some? <==> depth > 0 && IsGameOver(b, maximizing) == NotOver && ValidColumns(b) != []
    ensures r.col.Some? ==> r.col.value in ValidColumns(b)
    ensures InRange(r.score)
    decreases depth, 1, 0
  {
    var status := IsGameOver(b, maximizing);
    if depth == 0 || status != NotOver then Choice(LeafValue(b, status, s), None)
    else
      var cols := ValidColumns(b);
      if cols == [] then Choice(Fin(0), None)
      else MinimaxScan(b, depth, alpha, beta, maximizing, s, cols, 0,
                       if maximizing then NegInf else PosInf, cols[0])
  }

  /** The `for col in valid_columns` loop of `minimax` from the `i`-th
      column on, with the best score and column found so far. */
  function MinimaxScan(b: Board, depth: nat, alpha: Value, beta: Value, maximizing: bool, s: Scorer,
                       cols: seq<int>, i: nat, best: Value, bestCol: int): (r: Choice)
    requires WellFormed(b) && depth > 0 && AllColumns(cols) && i <= |cols|
    requires bestCol in cols && InRange(best)
    ensures r.col.Some? && r.col.value in cols
    ensures InRange(r.score)
    decreases depth, 0, |cols| - i
  {
    if i == |cols| then Choice(best, Some(bestCol))
    else
      var col := cols[i];
      var eval := Minimax(SimulateMove(b, col, maximizing), depth - 1, alpha, beta, !maximizing, s).score;
      if maximizing then
        var best' := if Below(best, eval) then eval else best;
        var bestCol' := if Below(best, eval) then col else bestCol;
        var alpha' := Max(alpha, eval);
        if !Below(alpha', beta) then Choice(best', Some(bestCol'))
        else MinimaxScan(b, depth, alpha', beta, maximizing, s, cols, i + 1, best', bestCol')
      else
        var best' := if Below(eval, best) then eval else best;
        var bestCol' := if Below(eval, best) then col else bestCol;
        var beta' := Min(beta, eval);
        if !Below(alpha, beta') then Choice(best', Some(bestCol'))
        else MinimaxScan(b, depth, alpha, beta', maximizing, s, cols, i + 1, best', bestCol')
  }

  /** The inner `negscout` of `NegScoutAgent.get_chosen_column`. */
  function Negscout(b: Board, depth: nat, alpha: Value, beta: Value, maximizing: bool, s: Scorer): (r: Choice)
    requires WellFormed(b)
    ensures r.col.Some? <==> depth > 0 && IsGameOver(b, maximizing) == NotOver && ValidColumns(b) != []
    ensures r.col.Some? ==> r.col.value in ValidColumns(b)
    ensures InRange(r.score)
    decreases depth, 1, 0
  {
    var status := IsGameOver(b, maximizing);
    if depth == 0 || status != NotOver then Choice(LeafValue(b, status, s), None)
    else
      var cols := ValidColumns(b);
      if cols == [] then Choice(Fin(0), None)
      else NegscoutScan(b, depth, alpha, beta, maximizing, s, cols, 0,
                        if maximizing then NegInf else PosInf, cols[0])
  }

  /** The score `negscout` gives the child after `col`: a full-window
      search for the first column, otherwise a null-window probe followed by
      a re-search when the probe lands strictly inside (alpha, beta). */
  function ProbeChild(b: Board, depth: nat, alpha: Value, beta: Value, maximizing: bool, s: Scorer,
                      col: int, first: bool): (eval: Value)
    requires WellFormed(b) && depth > 0 && IsColumn(col)
    ensures InRange(eval)
    decreases depth, 0, 0
  {
    var child := SimulateMove(b, col, maximizing);
    if first then Neg(Negscout(child, depth - 1, Neg(beta), Neg(alpha), !maximizing, s).score)
    else
      var probe := Neg(Negscout(child, depth - 1, Pred(Neg(alpha)), Neg(alpha), !maximizing, s).score);
      if Below(alpha, probe) && Below(probe, beta) then
        Neg(Negscout(child, depth - 1, Neg(beta), Neg(probe), !maximizing, s).score)
      else probe
  }

  /** The `for i, col in enumerate(valid_columns)` loop of `negscout` from
      the `i`-th column on. */
  function NegscoutScan(b: Board, depth: nat, alpha: Value, beta: Value, maximizing: bool, s: Scorer,
                        cols: seq<int>, i: nat, best: Value, bestCol: int): (r: Choice)
    requires WellFormed(b) && depth > 0 && AllColumns(cols) && i <= |cols|
    requires bestCol in cols && InRange(best)
    ensures r.col.Some? && r.col.value in cols
    ensures InRange(r.score)
    decreases depth, 0, |cols| - i
  {
    if i == |cols| then Choice(best, Some(bestCol))
    else
      var col := cols[i];
      var eval := ProbeChild(b, depth, alpha, beta, maximizing, s, col, i == 0);
      var improves := if maximizing then Below(best, eval) else Below(eval, best);
      var best' := if improves then eval else best;
      var bestCol' := if improves then col else bestCol;
      var alpha' := if maximizing then Max(alpha, eval) else alpha;
      var beta' := if maximizing then beta else Min(beta, eval);
      if !Below(alpha', beta') then Choice(best', Some(bestCol'))
      else NegscoutScan(b, depth, alpha', beta', maximizing, s, cols, i + 1, best', bestCol')
  }

  // ---------------------------------------------------------------------
  // Alpha-beta against the plain minimax value

  /** `a <= b` on scores. */
  predicate AtMost(a: Value, b: Value)
  {
    !Below(b, a)
  }

  /** The minimax value of a position searched `depth` plies deep, with the
      same leaves as `minimax` and no pruning: the reference the alpha-beta
      search is measured against. */
  function MinimaxValue(b: Board, depth: nat, maximizing: bool, s: Scorer): (v: Value)
    requires WellFormed(b)
    ensures InRange(v)
    decreases depth, 1, 0
  {
    var status := IsGameOver(b, maximizing);
    if depth == 0 || status != NotOver then LeafValue(b, status, s)
    else
      var cols := ValidColumns(b);
      if cols == [] then Fin(0) else BestFrom(b, depth, maximizing, s, cols, 0)
  }

  /** The best child value over the columns `cols[i..]`: the largest for
      red, the smallest for yellow, and the neutral infinity when there is
      none. */
  function BestFrom(b: Board, depth: nat, maximizing: bool, s: Scorer, cols: seq<int>, i: nat): (v: Value)
    requires WellFormed(b) && depth > 0 && AllColumns(cols) && i <= |cols|
    ensures i < |cols| ==> InRange(v)
    ensures i == |cols| ==> v == if maximizing then NegInf else PosInf
    decreases depth, 0, |cols| - i
  {
    if i == |cols| then (if maximizing then NegInf else PosInf)
    else
      var v := MinimaxValue(SimulateMove(b, cols[i], maximizing), depth - 1, !maximizing, s);
      var rest := BestFrom(b, depth, maximizing, s, cols, i + 1);
      if maximizing then Max(v, rest) else Min(v, rest)
  }

  /** What a fail-soft search with window (alpha, beta) promises about its
      score `r` against the true value `v`: at or below alpha it is an upper
      bound, strictly inside the window it is exact, at or above beta it is a
      lower bound. */
  predicate FailSoft(r: Value, v: Value, alpha: Value, beta: Value)
  {
    && (AtMost(r, alpha) ==> AtMost(v, r))
    && (Below(alpha, r) && Below(r, beta) ==> v == r)
    && (AtMost(beta, r) ==> AtMost(r, v))
  }

  /** Minus infinity is the unit of `Max`, plus infinity that of `Min`,
      and both are associative. */
  lemma MaxMinFacts(a: Value, b: Value, c: Value)
    ensures Max(Max(a, b), c) == Max(a, Max(b, c))
    ensures Min(Min(a, b), c) == Min(a, Min(b, c))
    ensures Max(NegInf, a) == a && Max(a, NegInf) == a
    ensures Min(PosInf, a) == a && Min(a, PosInf) == a
  {
  }

  /** The end of a red node's loop: the best score found is fail-soft for
      the starting alpha, given the loop's invariant relating it to the true
      value `m` of the columns searched. */
  lemma MaxEnd(alpha0: Value, beta: Value, best: Value, m: Value)
    requires Below(Max(alpha0, best), beta)
    requires AtMost(m, best) && (Below(alpha0, best) ==> m == best)
    ensures FailSoft(best, m, alpha0, beta)
  {
  }

  /** One turn of a red node's loop on scores alone: the child's score
      `eval` is fail-soft for (alpha, beta) against its true value `v`, and
      `rest` is the true value of the columns still to come. Either the loop
      goes on with its invariant kept, or it cuts off with a fail-soft
      answer. */
  lemma MaxStep(alpha0: Value, beta: Value, best: Value, m: Value, eval: Value, v: Value, rest: Value)
    requires Below(Max(alpha0, best), beta)
    requires AtMost(m, best) && (Below(alpha0, best) ==> m == best)
    requires FailSoft(eval, v, Max(alpha0, best), beta)
    ensures Below(Max(alpha0, Max(best, eval)), beta) ==>
      AtMost(Max(m, v), Max(best, eval)) && (Below(alpha0, Max(best, eval)) ==> Max(m, v) == Max(best, eval))
    ensures !Below(Max(alpha0, Max(best, eval)), beta) ==>
      FailSoft(Max(best, eval), Max(m, Max(v, rest)), alpha0, beta)
  {
  }

  /** The end of a yellow node's loop: the mirror image of `MaxEnd`. */
  lemma MinEnd(alpha: Value, beta0: Value, best: Value, m: Value)
    requires Below(alpha, Min(beta0, best))
    requires AtMost(best, m) && (Below(best, beta0) ==> m == best)
    ensures FailSoft(best, m, alpha, beta0)
  {
  }

  /** One turn of a yellow node's loop: the mirror image of `MaxStep`. */
  lemma MinStep(alpha: Value, beta0: Value, best: Value, m: Value, eval: Value, v: Value, rest: Value)
    requires Below(alpha, Min(beta0, best))
    requires AtMost(best, m) && (Below(best, beta0) ==> m == best)
    requires FailSoft(eval, v, alpha, Min(beta0, best))
    ensures Below(alpha, Min(beta0, Min(best, eval))) ==>
      AtMost(Min(best, eval), Min(m, v)) && (Below(Min(best, eval), beta0) ==> Min(m, v) == Min(best, eval))
    ensures !Below(alpha, Min(beta0, Min(best, eval))) ==>
      FailSoft(Min(best, eval), Min(m, Min(v, rest)), alpha, beta0)
  {
  }

  /** The alpha-beta `minimax` is fail-soft for every non-empty window. */
  lemma {:induction false} MinimaxFailSoft(b: Board, depth: nat, alpha: Value, beta: Value, maximizing: bool, s: Scorer)
    requires WellFormed(b) && Below(alpha, beta)
    ensures FailSoft(Minimax(b, depth, alpha, beta, maximizing, s).score, MinimaxValue(b, depth, maximizing, s), alpha, beta)
    decreases depth, 1, 0
  {
    var status := IsGameOver(b, maximizing);
    if depth > 0 && status == NotOver {
      var cols := ValidColumns(b);
      if cols != [] {
        var all := BestFrom(b, depth, maximizing, s, cols, 0);
        assert MinimaxValue(b, depth, maximizing, s) == all;
        MaxMinFacts(all, all, all);
        if maximizing {
          assert Minimax(b, depth, alpha, beta, maximizing, s) == MinimaxScan(b, depth, alpha, beta, true, s, cols, 0, NegInf, cols[0]);
          MaxScanFailSoft(b, depth, alpha, beta, s, cols, 0, NegInf, cols[0], alpha, NegInf);
        } else {
          assert Minimax(b, depth, alpha, beta, maximizing, s) == MinimaxScan(b, depth, alpha, beta, false, s, cols, 0, PosInf, cols[0]);
          MinScanFailSoft(b, depth, alpha, beta, s, cols, 0, PosInf, cols[0], beta, PosInf);
        }
      }
    }
  }

  /** The search of the child after a drop into `col` is fail-soft
      against the child's minimax value. */
  lemma {:induction false} ChildFailSoft(b: Board, depth: nat, alpha: Value, beta: Value, maximizing: bool, s: Scorer, col: int)
    requires WellFormed(b) && depth > 0 && IsColumn(col) && Below(alpha, beta)
    ensures FailSoft(Minimax(SimulateMove(b, col, maximizing), depth - 1, alpha, beta, !maximizing, s).score,
                     MinimaxValue(SimulateMove(b, col, maximizing), depth - 1, !maximizing, s), alpha, beta)
    decreases depth, 0, 0
  {
    var child := SimulateMove(b, col, maximizing);
    MinimaxFailSoft(child, depth - 1, alpha, beta, !maximizing, s);
    var r := Minimax(child, depth - 1, alpha, beta, !maximizing, s).score;
    var v := MinimaxValue(child, depth - 1, !maximizing, s);
    assert FailSoft(r, v, alpha, beta);
  }

  /** The loop of a red node keeps, with `m` the true value of the columns
      already searched: alpha is the larger of the starting alpha and the
      best score, the best score bounds `m` from above, and equals it once it
      rises above the starting alpha. */
  lemma {:induction false} MaxScanFailSoft(b: Board, depth: nat, alpha: Value, beta: Value, s: Scorer,
                                           cols: seq<int>, i: nat, best: Value, bestCol: int,
                                           alpha0: Value, m: Value)
    requires WellFormed(b) && depth > 0 && AllColumns(cols) && i <= |cols|
    requires bestCol in cols && InRange(best)
    requires Below(alpha, beta) && alpha == Max(alpha0, best)
    requires AtMost(m, best) && (Below(alpha0, best) ==> m == best)
    ensures FailSoft(MinimaxScan(b, depth, alpha, beta, true, s, cols, i, best, bestCol).score,
                     Max(m, BestFrom(b, depth, true, s, cols, i)), alpha0, beta)
    decreases depth, 0, |cols| - i
  {
    if i == |cols| {
      MaxMinFacts(m, m, m);
      MaxEnd(alpha0, beta, best, m);
    } else {
      var col := cols[i];
      var eval := Minimax(SimulateMove(b, col, true), depth - 1, alpha, beta, false, s).score;
      var v := MinimaxValue(SimulateMove(b, col, true), depth - 1, false, s);
      var rest := BestFrom(b, depth, true, s, cols, i + 1);
      assert BestFrom(b, depth, true, s, cols, i) == Max(v, rest);
      ChildFailSoft(b, depth, alpha, beta, true, s, col);
      MaxStep(alpha0, beta, best, m, eval, v, rest);
      MaxMinFacts(alpha0, best, eval);
      MaxMinFacts(m, v, rest);
      var best' := Max(best, eval);
      var bestCol' := if Below(best, eval) then col else bestCol;
      if Below(Max(alpha0, best'), beta) {
        assert MinimaxScan(b, depth, alpha, beta, true, s, cols, i, best, bestCol)
          == MinimaxScan(b, depth, Max(alpha0, best'), beta, true, s, cols, i + 1, best', bestCol');
        MaxScanFailSoft(b, depth, Max(alpha0, best'), beta, s, cols, i + 1, best', bestCol', alpha0, Max(m, v));
      } else {
        assert MinimaxScan(b, depth, alpha, beta, true, s, cols, i, best, bestCol).score == best';
      }
    }
  }

  /** The loop of a yellow node: the mirror image of the red one, with beta
      in place of alpha. */
  lemma {:induction false} MinScanFailSoft(b: Board, depth: nat, alpha: Value, beta: Value, s: Scorer,
                                           cols: seq<int>, i: nat, best: Value, bestCol: int,
                                           beta0: Value, m: Value)
    requires WellFormed(b) && depth > 0 && AllColumns(cols) && i <= |cols|
    requires bestCol in cols && InRange(best)
    requires Below(alpha, beta) && beta == Min(beta0, best)
    requires AtMost(best, m) && (Below(best, beta0) ==> m == best)
    ensures FailSoft(MinimaxScan(b, depth, alpha, beta, false, s, cols, i, best, bestCol).score,
                     Min(m, BestFrom(b, depth, false, s, cols, i)), alpha, beta0)
    decreases depth, 0, |cols| - i
  {
    if i == |cols| {
      MaxMinFacts(m, m, m);
      MinEnd(alpha, beta0, best, m);
    } else {
      var col := cols[i];
      var eval := Minimax(SimulateMove(b, col, false), depth - 1, alpha, beta, true, s).score;
      var v := MinimaxValue(SimulateMove(b, col, false), depth - 1, true, s);
      var rest := BestFrom(b, depth, false, s, cols, i + 1);
      assert BestFrom(b, depth, false, s, cols, i) == Min(v, rest);
      ChildFailSoft(b, depth, alpha, beta, false, s, col);
      MinStep(alpha, beta0, best, m, eval, v, rest);
      MaxMinFacts(beta0, best, eval);
      MaxMinFacts(m, v, rest);
      var best' := Min(best, eval);
      var bestCol' := if Below(eval, best) then col else bestCol;
      if Below(alpha, Min(beta0, best')) {
        assert MinimaxScan(b, depth, alpha, beta, false, s, cols, i, best, bestCol)
          == MinimaxScan(b, depth, alpha, Min(beta0, best'), false, s, cols, i + 1, best', bestCol');
        MinScanFailSoft(b, depth, alpha, Min(beta0, best'), s, cols, i + 1, best', bestCol', beta0, Min(m, v));
      } else {
        assert MinimaxScan(b, depth, alpha, beta, false, s, cols, i, best, bestCol).score == best';
      }
    }
  }

  /** Searched with the full window, as `get_chosen_column` does, the
      alpha-beta `minimax` returns exactly the minimax value. */
  lemma MinimaxExact(b: Board, depth: nat, maximizing: bool, s: Scorer)
    requires WellFormed(b)
    ensures Minimax(b, depth, NegInf, PosInf, maximizing, s).score == MinimaxValue(b, depth, maximizing, s)
  {
    MinimaxFailSoft(b, depth, NegInf, PosInf, maximizing, s);
  }

  /** Which search an agent runs. */
  datatype Algorithm = AlphaBeta | NegScout

  /** `get_chosen_column` without the timing: select the scorer for the
      heuristic level, search from red's point of view with the window
      (minus infinity, plus infinity), and return the column found together
      with the scorer the agent keeps for its next call. */
  function ChosenColumn(alg: Algorithm, b: Board, maxDepth: nat, current: Scorer, heuristic: string)
    : (r: (Option<int>, Scorer))
    requires WellFormed(b)
    ensures r.1 == SelectScorer(current, heuristic)
    ensures r.0.Some? <==> maxDepth > 0 && IsGameOver(b, true) == NotOver && ValidColumns(b) != []
    ensures r.0.Some? ==> r.0.value in ValidColumns(b)
  {
    var s := SelectScorer(current, heuristic);
    var choice := match alg
      case AlphaBeta => Minimax(b, maxDepth, NegInf, PosInf, true, s)
      case NegScout => Negscout(b, maxDepth, NegInf, PosInf, true, s);
    (choice.col, s)
  }

  /** A chosen column is a real move: dropping red's piece there changes the
      board, and on a board that obeys gravity the result obeys it too. */
  lemma ChosenColumnIsLegal(alg: Algorithm, b: Board, maxDepth: nat, current: Scorer, heuristic: string)
    requires WellFormed(b)
    requires ChosenColumn(alg, b, maxDepth, current, heuristic).0.Some?
    ensures var col := ChosenColumn(alg, b, maxDepth, current, heuristic).0.value;
      IsColumn(col) && !ColumnFull(b, col) && SimulateMove(b, col, true) != b
      && (Gravity(b) ==> Gravity(SimulateMove(b, col, true)))
  {
    var col := ChosenColumn(alg, b, maxDepth, current, heuristic).0.value;
    var row := NextOpenRow(b, col);
    ValidColumnsSpec(b);
    assert b[0][col] == Empty;
    assert row.Some?;
    assert SimulateMove(b, col, true)[row.value][col] != b[row.value][col];
    if Gravity(b) {
      SimulateMoveKeepsGravity(b, col, true);
    }
  }
}
